=== FILE: README.md ===
# IceSpring ZooKeeper Explorer — a verified model of its core

IceSpring ZooKeeper Explorer is a small desktop browser for a ZooKeeper
namespace. This project models, in Dafny, the logic inside `main.py` that sits
between the Qt widgets and the kazoo session:

- **Content inspector** (`inspector.dfy`, with `percent.dfy`, `query.dfy`,
  `text.dfy`, `collections.dfy`). `detectType`, `convertText`,
  `convertTextOrIllegal` and the two pane refreshers classify a path or value
  as JSON, URL or Raw and render it. The URL view uses Python's `unquote`,
  `str.split`, `parse_qsl`, `dict(...)`, `"\n".join` and `str.strip`. Each of
  these is written out as a function; its properties are stated in its
  contract or in lemmas about it.
- **Path joining** (`paths.dfy`). A child path is the parent path, `/` and the
  name, with one collapsing pass of `replace("//", "/")`.
- **Tree mirror** (`mirror.dfy`). `expandPath`, `expandLeaf`, `refreshLeaf`
  and `refreshTree` are modelled over an immutable tree of rows. The remote
  namespace is an oracle of two functions, `listChildren` and `get`, each of
  which may fail. Errors are carried as values.
- **Recent-server list** (`servers.dfy`). `doConnect` and the start-up code
  default the port, move the chosen address to the front without repeats, and
  load and save the list as lines of text.

`wrappers.dfy` holds `Option` and `Result`.

Several library calls are modelled as parameters rather than written out:

- `json.loads` followed by `json.dumps` is a function
  `string -> Option<string>`. `None` stands for `JSONDecodeError`.
- `zk.get_children` and `zk.get` are the fields of `Mirror.Remote`.
- The text of `servers.txt` is the input of `Servers.LoadServers` and the
  output of `Servers.SaveServers`.

The model keeps these behaviours of the code as written:

- `<EMPTY>` replaces an empty *converted* text, not an empty stored value
  (`main.py:129`). An empty value under the JSON button therefore shows
  `<ILLEGAL JSON>`, and the value `?` shows `<EMPTY>`.
- `//` is collapsed by one non-overlapping `str.replace` pass, not by
  normalising every run of slashes.
- A node has no separate "expanded with zero children" state. `expandLeaf`
  only asks whether the row has child rows (`main.py:51`), so a childless node
  is listed again each time it is expanded.
- A failed expansion keeps the rows that were appended before the failure.
  This includes a `/` row whose own expansion failed.
- After `expandPath("")`, `refreshTree` calls `treeView.sortByColumn(0)`. That
  call sorts every level of the model by the displayed title, which is the
  unquoted name plus ` [n]`. It does not sort by raw name. Rows appended later
  by `expandLeaf` are not sorted again, so they stay in raw-name order.
- `parse_qsl` turns `+` into a space before unquoting. Since Python 3.9.2 it
  splits only on `&`.

## Model

| member | source | states |
|---|---|---|
| Text.Strip | main.py:95 | `str.strip`: empty exactly when the text is all whitespace (Python's `isspace` set); otherwise it begins and ends with a visible character |
| Text.StripInfix | main.py:95 | the strip is the infix left between a whitespace run at the start and one at the end, which with the visible ends fixes it uniquely |
| Text.StripIdempotent | main.py:223 | stripping an already stripped entry changes nothing |
| Text.StripAroundNewline | main.py:95 | a prefix that starts visibly, a newline, and a query view that ends visibly pass through the final strip unchanged |
| Text.StripKeepsVisiblePrefix | main.py:95 | a prefix with visible ends survives the strip as the opening of the result |
| Text.StripVisible | main.py:223 | a text whose ends are visible is already stripped |
| Text.Join | main.py:84 | `sep.join(parts)`: the parts with the separator between neighbours; `JoinEndsWithLast`, `JoinAvoids` and `SplitThenJoin` state what callers rely on |
| Text.Split | main.py:91 | `str.split` on one character: at least one part, and no part holds the separator |
| Text.SplitThenJoin | main.py:91 | joining the parts with the separator gives back the text |
| Text.SplitWithoutSeparator | main.py:91 | a text without the separator is its own single part |
| Text.SplitJoin | main.py:91 | splitting inverts joining parts that do not hold the separator |
| Text.SplitAtFirst | main.py:92 | the first part ends at the first separator and the remaining parts are those of the rest |
| Text.SplitOuterPieces | main.py:92-93 | with two separators around a middle, the first part is the text before the first and the last part the text after the last |
| Text.Replace | main.py:16 | `str.replace`: a same-length replacement keeps the length |
| Text.ReplaceAbsent | main.py:16 | a text without the pattern is unchanged |
| Text.ReplaceChar | main.py:93 | replacing one character by another rewrites exactly its occurrences, position by position, and keeps the length (the `+`-to-space step of `parse_qsl`) |
| Text.Decimal | main.py:22 | `str(n)` for the child count: a non-empty run of decimal digits |
| Text.DecimalValue | main.py:22 | the digits spell `n`, with no leading zero unless `n` is 0 |
| Text.SplitLines | main.py:223 | `str.splitlines`: no line holds a line boundary, and there are no lines exactly for the empty text |
| Text.SplitLinesOneLine | main.py:223 | a non-empty text without a boundary is one line |
| Text.SplitLinesAtBreak | main.py:223 | the first line ends at the first boundary, `\r\n` counting as one boundary and a lone `\r` or other boundary character as one; the rest is split the same way |
| Text.SplitLinesJoin | main.py:223 | break-free lines joined by `\n`, blank ones included, split back into the same lines when the last is not empty |
| Collections.Dedup | main.py:83 | `dict.fromkeys`: no repeats, and an element is in the result exactly when it is in the input |
| Collections.DedupFirstSeenOrder | main.py:83 | the kept elements appear in the order of their first occurrence |
| Collections.DedupHead | main.py:83 | the first element is kept, and kept first |
| Collections.DedupOfDistinct | main.py:83 | a list without repeats is unchanged |
| Collections.DedupRepeatedHead | main.py:83 | a repeated first element is dropped like any later repeat |
| Collections.Assign | main.py:93 | `d[k] = v` on a dict: the key keeps its position or is added at the end, and only its value changes |
| Collections.DictItems | main.py:93 | `dict(pairs).items()`: the keys are the de-duplicated keys in first-seen order, and each holds the value of its last pair |
| Collections.DictItemsOfDistinct | main.py:93 | pairs with distinct keys come out as they went in |
| Collections.LessEqTotal | main.py:15 | any two strings are comparable in code-point order |
| Collections.LessEqTransitive | main.py:15 | code-point order is transitive |
| Collections.LessEqAntisymmetric | main.py:15 | code-point order is antisymmetric |
| Collections.InsertBy | main.py:15 | inserting into a sorted list keeps it sorted and adds exactly one element |
| Collections.SortBy | main.py:15 | `sorted` with a string key: ascending, and a permutation of the input |
| Collections.SortBySorted | main.py:42 | sorting a list already in order leaves it unchanged |
| Collections.NoDupOfPermutation | main.py:15 | a reordering of a list without repeats has no repeats |
| Collections.Positions | main.py:223 | the positions of the kept lines: each is a kept position, and they ascend |
| Collections.PositionsComplete | main.py:223 | no kept position is missed |
| Mirror.SortNamesStrict | main.py:14-15 | a listing without repeats, as ZooKeeper returns, sorts into strictly ascending raw names |
| Percent.Unquote | main.py:90 | `unquote` never fails and never lengthens the text; non-empty text decodes to non-empty text; text without `%` is unchanged |
| Percent.UnquoteKeeps | main.py:111 | a character that is neither `%` nor a hex digit survives decoding |
| Percent.UnquoteMalformed | main.py:90 | a `%` that does not start a well-formed escape is copied: text whose every `%` is malformed decodes to itself |
| Percent.UnquoteAfterPlain | main.py:90 | text without `%` is copied as it is, and decoding carries on unchanged after it |
| Percent.UnquoteDecodesEscape | main.py:90 | a well-formed `%XX`, in either case, decodes to the character whose code the two digits spell |
| Percent.UnquoteQuestionOrigin | main.py:111 | a `?` after decoding comes from a literal `?` or an escaped `%3F` / `%3f` |
| Percent.EscapedQuestionDecodes | main.py:111 | an escaped `%3F` / `%3f` anywhere decodes to a `?` |
| Percent.Quote | main.py:90 | the ASCII escaping that `unquote` inverts: at least as long as the input and at most three times as long |
| Percent.UnquoteQuote | main.py:90 | `unquote(quote(s)) == s` for ASCII text |
| Query.DecodeComponent | main.py:93 | a `parse_qsl` name or value: non-empty stays non-empty; without `%`, each `+` becomes a space and every other character is kept in place; text without `+` and `%` is unchanged; text without `+` is exactly its `unquote`, so `+` is replaced before decoding and `%2B` stays `+` |
| Query.ParseField | main.py:93 | a field without `=` is dropped; a field with `=` is kept exactly when its raw value after the first `=` is non-empty, and the kept pair is the decoded text before and after that `=` |
| Query.ParseFields | main.py:93 | no more pairs than fields, and no kept pair has an empty value |
| Query.ParseFieldsAppend | main.py:93 | fields are parsed independently: the pairs of a concatenation of fields are the concatenation of their pairs, in order |
| Query.ParseFieldsOne | main.py:93 | one field gives its pair when kept and nothing when dropped, so every non-blank field is kept in place |
| Query.ParseQsl | main.py:93 | `parse_qsl` with `keep_blank_values=False`: no kept pair has an empty value |
| Query.ParseQslEncode | main.py:93 | `parse_qsl` inverts the encoding of plain pairs |
| Query.RenderPairs | main.py:94 | one `    k = v` line per dictionary item, joined by newlines; `RenderedLinesSplit` and `RenderPairsEnd` state it |
| Query.RenderedLinesSplit | main.py:94 | each item reads back as its own `    k = v` line |
| Query.UrlRender | main.py:89-95 | the URL branch of `convertText` on unquoted text; `UrlDropsMiddleSegments`, `UrlWithoutQuestionMark` and `UrlRenderOfEncodedQuery` pin its result |
| Query.UrlDropsMiddleSegments | main.py:91-93 | the segments between the first and the last `?` have no effect on the URL view, which is the first segment and the pairs of the last |
| Query.UrlOfTwoMarks | main.py:91-93 | with two `?` or more, the view is made of the text before the first and the query after the last |
| Query.UrlOfOneMark | main.py:91-93 | with one `?`, the view is made of the text on either side of it |
| Query.UrlWithoutQuestionMark | main.py:91-93 | without a `?`, the whole text is both the prefix and the query |
| Query.UrlViewStartsWithPrefix | main.py:92-95 | a prefix with visible ends opens the view unchanged |
| Query.QueryViewOfEncoded | main.py:93-94 | plain pairs with distinct names render in their encoded order |
| Query.UrlRenderOfEncodedQuery | main.py:89-95 | the URL view of `a?q` for an encoded query `q` is `a`, a newline, and one `    k = v` line per pair |
| Inspector.DetectType | main.py:108-113 | always JSON, URL or Raw; JSON exactly when the raw text starts with `{` or `[`; URL exactly when it does not and the unquoted text holds `?` |
| Inspector.JsonCheckPrecedesUrlCheck | main.py:109-110 | JSON-looking text is JSON even when its unquoted form holds `?` |
| Inspector.UrlDetectedByQuestionMark | main.py:111-112 | for non-JSON text, URL exactly when it holds a literal `?` or an escaped `%3F` |
| Inspector.ConvertText | main.py:88-98 | any type other than URL and JSON is the identity; URL renders the unquoted text; JSON gives the reformatted text, and fails exactly when the text does not decode |
| Inspector.ConvertTextOrIllegal | main.py:101-105 | a decode failure becomes `<ILLEGAL JSON>`; otherwise the converted text |
| Inspector.Resolve | main.py:119 | the checked button's type, or the detected type under Auto; `PathPaneShowsEmptyAsEmpty` and `QuestionMarkValueShowsEmpty` use it |
| Inspector.PathPane | main.py:116-121 | `refreshPath`: the converted path with no substitution; `ValuePaneIsPathPaneWithEmpty` relates it to the value pane |
| Inspector.ValuePane | main.py:124-129 | `<EMPTY>` in place of an empty converted text; otherwise the converted text; never empty |
| Inspector.ValuePaneIsPathPaneWithEmpty | main.py:116-129 | the two panes convert alike, and only the value pane shows `<EMPTY>` when the result is empty |
| Inspector.PathPaneShowsEmptyAsEmpty | main.py:116-121 | the path pane has no `<EMPTY>` substitution: an empty path shows as empty under Auto, Raw and URL |
| Inspector.EmptyValueUnderJsonIsIllegal | main.py:124-129 | an empty stored value under JSON shows `<ILLEGAL JSON>`, not `<EMPTY>` |
| Inspector.QuestionMarkValueShowsEmpty | main.py:124-129 | the non-empty value `?` shows `<EMPTY>` under Auto |
| Paths.JoinPath | main.py:16 | `f"{path}/{name}".replace("//", "/")`; `JoinValid`, `JoinAfterPlainParent` and `SplitJoinPath` state its result |
| Paths.CollapseNothing | main.py:16 | the collapsing pass leaves a text without `//` alone |
| Paths.CollapseSplits | main.py:16 | the pass works on the two sides of a boundary whose left side does not end in `/` separately |
| Paths.JoinAfterPlainParent | main.py:16 | a name without `/` is appended after exactly one slash |
| Paths.JoinBootstrap | main.py:14-16 | joining the empty path and `/` gives `/` |
| Paths.JoinUnderRoot | main.py:16 | under the root, one slash of the pair is dropped |
| Paths.JoinValid | main.py:16 | a valid name under a valid path gives a valid path one level deeper, with no `//`; the empty path joins like the root |
| Paths.SplitJoinPath | main.py:16 | the parent path and the name can be recovered from the joined path |
| Mirror.Title | main.py:21-22 | the first-column text of a row; `TitleShowsName` states it |
| Mirror.TitleShowsName | main.py:21-22 | the title is the unquoted name for a childless node, and otherwise the unquoted name followed by ` [n]` with `n` the child count in decimal |
| Mirror.SortNames | main.py:15 | `sorted(children)`: ascending by raw name, and a permutation of the listing |
| Mirror.ExpandPath | main.py:12-31 | a failing listing leaves the node as it was; otherwise one row per sorted name is appended after the existing rows, all of them when no error occurs; the empty path appends the single name `/`; `ExpandPathReports` says exactly when an error occurs |
| Mirror.AppendChildren | main.py:15-31 | each appended row stores the raw joined path, the title and the value from `get`; a non-`/` row has no rows; on an error the rows before it are kept |
| Mirror.AppendChildrenReports | main.py:15-31 | under a real path the loop reports an error exactly when `zk.get` fails for some name, and the error is that of the name right after the kept rows |
| Mirror.ExpandPathReports | main.py:12-31 | expanding a real path reports an error exactly when the listing fails or `zk.get` fails for a listed name; a `get` error is the one of the first failing name in sorted order |
| Mirror.BootstrapExpandsRoot | main.py:14-31 | expanding the empty path appends exactly one row `/`, holding the expansion of `/` |
| Mirror.ExpandedRows | main.py:15-24 | a successful expansion of a childless row appends one leaf row per listed name, in raw-name order, each holding the joined path and the fetched value |
| Mirror.ExpansionOrdersByRawName | main.py:15-24 | a successful expansion of a childless node has exactly one row per listed name, in ascending raw-name order |
| Mirror.ExpandLeaf | main.py:46-51 | a node with rows is left alone; a node without rows is expanded under its stored path |
| Mirror.ExpandLeafIdempotent | main.py:51 | once a node has rows, expanding it again changes nothing, whatever the remote side holds |
| Mirror.ExpandLeafRetriesChildless | main.py:51 | a node whose expansion found nothing is listed again on the next attempt |
| Mirror.ExpandAt | main.py:46-51 | expanding the row at an address replaces that row with its expansion and reports the same error |
| Mirror.ExpandAtLeavesOthers | main.py:46-51 | every row off the path to the expanded row is unchanged |
| Mirror.ExpandAtExpandedIsNoOp | main.py:51 | expanding a row that already has rows leaves the whole tree unchanged |
| Mirror.SortTree | main.py:42 | `sortByColumn(0)`: every level is ordered by title, and each node keeps its item and its number of rows |
| Mirror.SortedRows | main.py:42 | each child is sorted in its own right and keeps its item and position |
| Mirror.SortTreeKeepsRows | main.py:42 | a sorted level is a reordering of its sorted children: sorting invents and drops no rows |
| Mirror.SortTreeKeepsRow | main.py:42 | sorting drops no rows |
| Mirror.SortTreeOfSorted | main.py:42 | sorting a sorted tree changes nothing |
| Mirror.SortTreeSingleRow | main.py:42 | a level with one row keeps that row, sorted in its own right |
| Mirror.SortLeavesPermutes | main.py:42 | sorting a level of leaves only reorders it |
| Mirror.RefreshLeaf | main.py:54-73 | fails exactly when `get` on the stored path fails; otherwise the path pane shows the stored raw path and the value pane shows the freshly fetched value, never empty |
| Mirror.RefreshTree | main.py:35-43 | a refresh without error shows exactly one top row `/`, has a sorted tree and shows the detail of that row |
| Mirror.RefreshReports | main.py:35-43 | a refresh succeeds exactly when `zk.get("/")`, the listing of `/` and `zk.get` of every listed child succeed |
| Mirror.RefreshTopIsRoot | main.py:35-43 | after a successful refresh the top row is the sorted expansion of `/` |
| Mirror.SortedRowsAreListing | main.py:35-43 | sorting the expansion of `/` yields rows in title order that match the listing name for name |
| Mirror.RefreshShowsRootListing | main.py:35-43 | after a successful refresh the rows under `/` are in title order, with one row per name listed under `/` and a row for each such name |
| Servers.WithDefaultPort | main.py:79 | an address holding a `:` is kept as typed; any other address gets `:2181` appended |
| Servers.WithDefaultPortIdempotent | main.py:79 | defaulting the port twice is defaulting it once |
| Servers.Remember | main.py:83 | the chosen address is first; there are no repeats; the members are the chosen address and the previous entries |
| Servers.RememberKeepsOrder | main.py:83 | the other entries keep the order of their first occurrence in the previous list |
| Servers.RememberIdempotent | main.py:83 | connecting again to the head of the list leaves the list unchanged |
| Servers.Entries | main.py:223 | no more entries than lines; each entry is non-blank and already stripped |
| Servers.EntriesNoneIffBlank | main.py:223 | there are no entries exactly when every line is blank |
| Servers.EntriesAreNonBlankLines | main.py:223 | the entries are, in order, the stripped lines at the positions of the non-blank lines |
| Servers.LoadServers | main.py:223 | when every line of the file is blank the list is `["127.0.0.1:2181"]`; otherwise it is the entries of the file's lines; it is never empty and holds only non-blank stripped entries |
| Servers.SaveServers | main.py:84 | `"\n".join(servers)`; `LoadSave` states that it is read back by the loader |
| Servers.LoadSave | main.py:221-223 | a saved list of one-line, stripped, non-blank entries loads back unchanged |
| Servers.Connect | main.py:76-85 | the address used is the typed one with the port defaulted; the list is `Remember` of it over the previous one, so it heads a list without repeats; what is written is that list joined by newlines |
| Servers.ConnectThenRestart | main.py:76-85 | after connecting, the next start-up reads back exactly the list that connecting produced |

## Left out

- Qt widgets, the radio buttons, signal wiring and `treeView.expand` are UI. So is the `insertItem` call that adds a new address to the combo box.
- The kazoo session (`KazooClient`, `start`) and its network traffic are left out. `get_children` and `get` are the oracle `Mirror.Remote`, and their errors are passed through as `Mirror.RemoteError`.
- Mirror.Remote: one oracle value stands for the server during one refresh or expansion, so every call there sees the same fixed state. A znode changing, or the session being lost, between two calls is not modelled. An example is the two `zk.get("/")` calls of a refresh, one inside `expandPath("")` (`main.py:18`) and one in `refreshLeaf` (`main.py:59`). `Mirror.RefreshReports` relies on this.
- Reading and writing `servers.txt` is file I/O. Only the text of the file is modelled.
- The created and updated timestamps and the metadata block of `refreshLeaf` are left out. They are library date formatting and string slicing of library output.
- `json.loads` and `json.dumps` are not written out. They are a parameter `string -> Option<string>`, so indentation and key order are not modelled.
- `value.decode()` is assumed to succeed, and znode values are modelled as already-decoded strings.
- Percent.Unquote: decodes each `%XX` to the character with code `XX`. It does not combine multi-byte UTF-8 sequences as Python's `unquote` does, so it is exact only for ASCII escapes. That covers the `?` detection and `%3F`.
- Percent.Quote: not part of the program. It is the encoding against which `Unquote` is shown to be an inverse.
- Collections.SortBy and Mirror.SortTree: titles are compared by Unicode code point. Qt compares UTF-16 code units, which differs only for characters above U+FFFF against U+E000–U+FFFF.
- Text.Replace: its contract states only that a same-length replacement keeps the length; `Text.ReplaceAbsent` adds that a text without the pattern is unchanged, and `Text.ReplaceChar` pins the one-character replacement `parse_qsl` uses. The `//` collapse itself is stated by the `Paths` lemmas.
- Collections.SortBy: the function is stable by construction, but stability is not stated as a property.
- Servers.Connect: models only a `zk.start()` that succeeds. When `start` raises, `doConnect` stops before line 82, so the list and `servers.txt` stay as they were; that path is not modelled.
- `print` logging is left out.
- `play.py`, which seeds a live server with fixture nodes, is left out.
- `make.py`, the packaging script, is left out.

=== FILE: collections.dfy ===
/** Sequence operations behind Python's `dict` and `sorted`: first-seen
    de-duplication, last-value dictionaries and an ordered sort. */
module Collections {

  predicate NoDup<T(==)>(xs: seq<T>) {
    forall i, j :: 0 <= i < j < |xs| ==> xs[i] != xs[j]
  }

  /** Position of the first occurrence of `x` in `xs`. */
  function FirstIndex<T(==)>(xs: seq<T>, x: T): (i: nat)
    requires x in xs
    ensures i < |xs| && xs[i] == x && x !in xs[..i]
    decreases |xs|
  {
    if xs[0] == x then 0 else 1 + FirstIndex(xs[1..], x)
  }

  /** Appending an element does not move the first occurrence of an earlier one. */
  lemma {:induction false} FirstIndexExtend<T>(xs: seq<T>, y: T, x: T)
    requires x in xs
    ensures FirstIndex(xs + [y], x) == FirstIndex(xs, x)
    decreases |xs|
  {
    if xs[0] != x {
      assert (xs + [y])[1..] == xs[1..] + [y];
      FirstIndexExtend(xs[1..], y, x);
    }
  }

  /** Python's `list(dict.fromkeys(xs))`: each element once (the order is
      stated by `DedupFirstSeenOrder`). */
  function Dedup<T(==)>(xs: seq<T>): (r: seq<T>)
    ensures NoDup(r)
    ensures forall i :: 0 <= i < |r| ==> r[i] in xs
    ensures forall i :: 0 <= i < |xs| ==> xs[i] in r
    decreases |xs|
  {
    if xs == [] then []
    else
      var init := xs[..|xs| - 1];
      var last := xs[|xs| - 1];
      var d := Dedup(init);
      assert forall i :: 0 <= i < |init| ==> init[i] == xs[i];
      if last in d then d
      else d + [last]
  }

  /** The elements keep the order of their first occurrences in `xs`. */
  lemma {:induction false} DedupFirstSeenOrder<T>(xs: seq<T>)
    ensures forall i, j :: 0 <= i < j < |Dedup(xs)| ==> FirstIndex(xs, Dedup(xs)[i]) < FirstIndex(xs, Dedup(xs)[j])
    decreases |xs|
  {
    if xs != [] {
      var init := xs[..|xs| - 1];
      var last := xs[|xs| - 1];
      assert xs == init + [last];
      var d := Dedup(init);
      DedupFirstSeenOrder(init);
      forall i | 0 <= i < |d|
        ensures FirstIndex(xs, d[i]) == FirstIndex(init, d[i]) < |init|
      {
        FirstIndexExtend(init, last, d[i]);
      }
      if last !in d {
        assert last !in init;
        assert xs[..|init|] == init;
        assert FirstIndex(xs, last) == |init|;
      }
    }
  }

  /** The first element survives de-duplication and stays first. */
  lemma {:induction false} DedupHead<T>(xs: seq<T>)
    requires xs != []
    ensures Dedup(xs) != [] && Dedup(xs)[0] == xs[0]
    decreases |xs|
  {
    if |xs| > 1 {
      var init := xs[..|xs| - 1];
      assert init[0] == xs[0];
      DedupHead(init);
    }
  }

  /** A repeated first element is dropped like any later duplicate. */
  lemma {:induction false} DedupRepeatedHead<T>(x: T, t: seq<T>)
    ensures Dedup([x, x] + t) == Dedup([x] + t)
    decreases |t|
  {
    if t == [] {
      assert ([x, x] + t)[..1] == [x];
      assert [x] + t == [x];
    } else {
      var t0 := t[..|t| - 1];
      var long, short := [x, x] + t, [x] + t;
      assert long[..|long| - 1] == [x, x] + t0;
      assert short[..|short| - 1] == [x] + t0;
      DedupRepeatedHead(x, t0);
    }
  }

  /** Without duplicates there is nothing to remove. */
  lemma {:induction false} DedupOfDistinct<T>(xs: seq<T>)
    requires NoDup(xs)
    ensures Dedup(xs) == xs
    decreases |xs|
  {
    if xs != [] {
      var init := xs[..|xs| - 1];
      var last := xs[|xs| - 1];
      assert NoDup(init) by {
        forall i, j | 0 <= i < j < |init| ensures init[i] != init[j] {
          assert init[i] == xs[i] && init[j] == xs[j];
        }
      }
      DedupOfDistinct(init);
      assert last !in init by {
        forall i | 0 <= i < |init| ensures init[i] != last {
          assert init[i] == xs[i];
        }
      }
      assert init + [last] == xs;
    }
  }

  /** The keys of a list of pairs, in order. */
  function Keys<K, V>(items: seq<(K, V)>): seq<K> {
    seq(|items|, i requires 0 <= i < |items| => items[i].0)
  }

  /** The value of the last pair whose key is `k`. */
  function LastValue<K(==), V>(pairs: seq<(K, V)>, k: K): V
    requires k in Keys(pairs)
    decreases |pairs|
  {
    var n := |pairs| - 1;
    if pairs[n].0 == k then pairs[n].1
    else
      assert Keys(pairs) == Keys(pairs[..n]) + [pairs[n].0];
      LastValue(pairs[..n], k)
  }

  /** The keys of the tail are the tail of the keys, and stay distinct. */
  lemma KeysTail<K, V>(items: seq<(K, V)>)
    requires items != [] && NoDup(Keys(items))
    ensures Keys(items) == [items[0].0] + Keys(items[1..])
    ensures NoDup(Keys(items[1..]))
  {
    var ks, tail := Keys(items), Keys(items[1..]);
    forall i, j | 0 <= i < j < |tail| ensures tail[i] != tail[j] {
      assert tail[i] == ks[i + 1] && tail[j] == ks[j + 1];
    }
  }

  /** With distinct keys, no later item has the first key. */
  lemma HeadKeyUnique<K, V>(items: seq<(K, V)>)
    requires items != [] && NoDup(Keys(items))
    ensures forall i :: 1 <= i < |items| ==> items[i].0 != items[0].0
  {
    forall i | 1 <= i < |items| ensures items[i].0 != items[0].0 {
      assert Keys(items)[i] == items[i].0 && Keys(items)[0] == items[0].0;
    }
  }

  /** Python's `d[k] = v` on a dictionary kept as its item list: an existing
      key keeps its position and takes the new value; a new key goes last. */
  function Assign<K(==), V>(items: seq<(K, V)>, k: K, v: V): (r: seq<(K, V)>)
    requires NoDup(Keys(items))
    ensures Keys(r) == if k in Keys(items) then Keys(items) else Keys(items) + [k]
    ensures forall i :: 0 <= i < |r| ==> if r[i].0 == k then r[i].1 == v else r[i] in items
    decreases |items|
  {
    if items == [] then [(k, v)]
    else
      KeysTail(items);
      if items[0].0 == k then
        var r := [(k, v)] + items[1..];
        assert Keys(r) == [k] + Keys(items[1..]);
        HeadKeyUnique(items);
        r
      else
        var rest := Assign(items[1..], k, v);
        assert Keys([items[0]] + rest) == [items[0].0] + Keys(rest);
        [items[0]] + rest
  }

  lemma KeysSnoc<K, V>(items: seq<(K, V)>, p: (K, V))
    ensures Keys(items + [p]) == Keys(items) + [p.0]
  {
  }

  /** De-duplicating one more element appends it exactly when it is new. */
  lemma DedupSnoc<T>(xs: seq<T>, x: T)
    ensures Dedup(xs + [x]) == if x in Dedup(xs) then Dedup(xs) else Dedup(xs) + [x]
  {
    assert (xs + [x])[..|xs|] == xs;
  }

  /** Assigning the last pair keeps every item tied to its last value. */
  lemma DictItemsStep<K, V>(init: seq<(K, V)>, k: K, v: V, d: seq<(K, V)>, r: seq<(K, V)>)
    requires Keys(d) == Dedup(Keys(init)) && NoDup(Keys(d))
    requires forall i :: 0 <= i < |d| ==> d[i].0 in Keys(init) && d[i].1 == LastValue(init, d[i].0)
    requires forall i :: 0 <= i < |r| ==> if r[i].0 == k then r[i].1 == v else r[i] in d
    ensures forall i :: 0 <= i < |r| ==> r[i].0 in Keys(init + [(k, v)]) && r[i].1 == LastValue(init + [(k, v)], r[i].0)
  {
    var pairs := init + [(k, v)];
    var n := |init|;
    assert pairs[..n] == init && pairs[n] == (k, v);
    assert Keys(pairs) == Keys(init) + [k];
    forall i | 0 <= i < |r|
      ensures r[i].0 in Keys(pairs) && r[i].1 == LastValue(pairs, r[i].0)
    {
      if r[i].0 != k {
        var j :| 0 <= j < |d| && d[j] == r[i];
        assert Keys(d)[j] == d[j].0;
        assert d[j].0 in Keys(init);
      }
    }
  }

  /** Python's `list(dict(pairs).items())`: keys in first-seen order, each with
      the value of its last pair. */
  function DictItems<K(==), V>(pairs: seq<(K, V)>): (r: seq<(K, V)>)
    ensures Keys(r) == Dedup(Keys(pairs))
    ensures forall i :: 0 <= i < |r| ==> r[i].0 in Keys(pairs) && r[i].1 == LastValue(pairs, r[i].0)
    decreases |pairs|
  {
    if pairs == [] then []
    else
      var n := |pairs| - 1;
      var init := pairs[..n];
      var k, v := pairs[n].0, pairs[n].1;
      assert pairs == init + [(k, v)];
      var d := DictItems(init);
      KeysSnoc(init, (k, v));
      DedupSnoc(Keys(init), k);
      var r := Assign(d, k, v);
      DictItemsStep(init, k, v, d, r);
      r
  }

  /** With distinct keys the last value of a key is its only value. */
  lemma {:induction false} LastValueOfDistinct<K, V>(pairs: seq<(K, V)>, i: nat)
    requires NoDup(Keys(pairs)) && i < |pairs|
    ensures pairs[i].0 in Keys(pairs)
    ensures LastValue(pairs, pairs[i].0) == pairs[i].1
    decreases |pairs|
  {
    var n := |pairs| - 1;
    assert Keys(pairs)[i] == pairs[i].0;
    if i < n {
      assert Keys(pairs)[n] == pairs[n].0;
      assert Keys(pairs[..n]) == Keys(pairs)[..n];
      assert Keys(pairs[..n])[i] == pairs[i].0;
      LastValueOfDistinct(pairs[..n], i);
    }
  }

  /** A list of pairs with distinct keys is already its own dictionary. */
  lemma DictItemsOfDistinct<K, V>(pairs: seq<(K, V)>)
    requires NoDup(Keys(pairs))
    ensures DictItems(pairs) == pairs
  {
    var r := DictItems(pairs);
    DedupOfDistinct(Keys(pairs));
    assert |r| == |Keys(r)| == |pairs|;
    forall i | 0 <= i < |r| ensures r[i] == pairs[i] {
      assert Keys(r)[i] == Keys(pairs)[i];
      LastValueOfDistinct(pairs, i);
    }
  }

  /** Code-point lexicographic order on strings, as Python's `<=` on `str`. */
  predicate LessEq(a: string, b: string)
    decreases |a|
  {
    a == [] || (b != [] && (a[0] < b[0] || (a[0] == b[0] && LessEq(a[1..], b[1..]))))
  }

  lemma {:induction false} LessEqTotal(a: string, b: string)
    ensures LessEq(a, b) || LessEq(b, a)
    decreases |a|
  {
    if a != [] && b != [] && a[0] == b[0] {
      LessEqTotal(a[1..], b[1..]);
    }
  }

  lemma {:induction false} LessEqTransitive(a: string, b: string, c: string)
    requires LessEq(a, b) && LessEq(b, c)
    ensures LessEq(a, c)
    decreases |a|
  {
    if a != [] && a[0] == b[0] && b[0] == c[0] {
      LessEqTransitive(a[1..], b[1..], c[1..]);
    }
  }

  lemma {:induction false} LessEqAntisymmetric(a: string, b: string)
    requires LessEq(a, b) && LessEq(b, a)
    ensures a == b
    decreases |a|
  {
    if a != [] {
      LessEqAntisymmetric(a[1..], b[1..]);
      assert a == [a[0]] + a[1..] && b == [b[0]] + b[1..];
    }
  }

  /** `xs` is in ascending order of `key`. */
  predicate SortedBy<T>(xs: seq<T>, key: T -> string) {
    forall i, j :: 0 <= i < j < |xs| ==> LessEq(key(xs[i]), key(xs[j]))
  }

  /** Inserts `x` before the first element whose key is not smaller, so that
      `x` precedes the equal keys that follow it. */
  function InsertBy<T>(x: T, xs: seq<T>, key: T -> string): (r: seq<T>)
    requires SortedBy(xs, key)
    ensures SortedBy(r, key)
    ensures multiset(r) == multiset(xs) + multiset{x}
    decreases |xs|
  {
    if xs == [] then [x]
    else if LessEq(key(x), key(xs[0])) then
      forall j | 0 <= j < |xs|
        ensures LessEq(key(x), key(xs[j]))
      {
        if j > 0 {
          LessEqTransitive(key(x), key(xs[0]), key(xs[j]));
        }
      }
      [x] + xs
    else
      LessEqTotal(key(x), key(xs[0]));
      var rest := InsertBy(x, xs[1..], key);
      assert xs == [xs[0]] + xs[1..];
      forall j | 0 <= j < |rest|
        ensures LessEq(key(xs[0]), key(rest[j]))
      {
        assert rest[j] in multiset(rest);
        if rest[j] != x {
          assert rest[j] in multiset(xs[1..]);
          var k :| 1 <= k < |xs| && xs[k] == rest[j];
        }
      }
      [xs[0]] + rest
  }

  /** Python's `sorted(xs, key=key)` for string keys: an ascending permutation. */
  function SortBy<T>(xs: seq<T>, key: T -> string): (r: seq<T>)
    ensures SortedBy(r, key)
    ensures multiset(r) == multiset(xs)
    decreases |xs|
  {
    if xs == [] then []
    else
      assert xs == [xs[0]] + xs[1..];
      InsertBy(xs[0], SortBy(xs[1..], key), key)
  }

  /** Sorting what is already in order changes nothing. */
  lemma {:induction false} SortBySorted<T>(xs: seq<T>, key: T -> string)
    requires SortedBy(xs, key)
    ensures SortBy(xs, key) == xs
    decreases |xs|
  {
    if xs != [] {
      SortedTail(xs, key);
      SortBySorted(xs[1..], key);
      InsertSmallest(xs[0], xs[1..], key);
      assert xs == [xs[0]] + xs[1..];
    }
  }

  /** The tail of a sorted list is sorted, and its head is no smaller than the
      head of the list. */
  lemma SortedTail<T>(xs: seq<T>, key: T -> string)
    requires xs != [] && SortedBy(xs, key)
    ensures SortedBy(xs[1..], key)
    ensures |xs| > 1 ==> LessEq(key(xs[0]), key(xs[1..][0]))
  {
    forall i, j | 0 <= i < j < |xs[1..]| ensures LessEq(key(xs[1..][i]), key(xs[1..][j])) {
      assert xs[1..][i] == xs[i + 1] && xs[1..][j] == xs[j + 1];
    }
    if |xs| > 1 {
      assert xs[1..][0] == xs[1];
    }
  }

  /** An element no greater than the first goes in front. */
  lemma InsertSmallest<T>(x: T, xs: seq<T>, key: T -> string)
    requires SortedBy(xs, key)
    requires xs == [] || LessEq(key(x), key(xs[0]))
    ensures InsertBy(x, xs, key) == [x] + xs
  {
  }

  /** Positions one further on. */
  function Shift(idx: seq<nat>): (r: seq<nat>)
    ensures |r| == |idx| && forall k :: 0 <= k < |idx| ==> r[k] == idx[k] + 1
  {
    seq(|idx|, k requires 0 <= k < |idx| => idx[k] + 1)
  }

  /** The positions of the `true` flags, in ascending order. */
  function Positions(keep: seq<bool>): (idx: seq<nat>)
    ensures forall k :: 0 <= k < |idx| ==> idx[k] < |keep| && keep[idx[k]]
    ensures forall k, l :: 0 <= k < l < |idx| ==> idx[k] < idx[l]
    decreases |keep|
  {
    if keep == [] then []
    else
      var later := Positions(keep[1..]);
      var shifted := Shift(later);
      forall k | 0 <= k < |shifted| ensures shifted[k] < |keep| && keep[shifted[k]] {
        assert keep[1..][later[k]] == keep[later[k] + 1];
      }
      if keep[0] then
        var idx := [0] + shifted;
        assert forall k :: 1 <= k < |idx| ==> idx[k] == shifted[k - 1];
        idx
      else shifted
  }

  /** Picking `vals[0]` and then the values at `shifted` is picking the values
      at `[0] + shifted`. */
  lemma PrependAt<T>(e: T, rest: seq<T>, shifted: seq<nat>, vals: seq<T>)
    requires vals != [] && e == vals[0] && |shifted| == |rest|
    requires forall k :: 0 <= k < |shifted| ==> shifted[k] < |vals| && rest[k] == vals[shifted[k]]
    ensures var r, idx := [e] + rest, [0] + shifted;
            forall k :: 0 <= k < |idx| ==> idx[k] < |vals| && r[k] == vals[idx[k]]
  {
    var r, idx := [e] + rest, [0] + shifted;
    forall k | 0 <= k < |idx| ensures idx[k] < |vals| && r[k] == vals[idx[k]] {
      if k > 0 {
        assert idx[k] == shifted[k - 1] && r[k] == rest[k - 1];
      }
    }
  }

  /** No `true` flag is missed. */
  lemma {:induction false} PositionsComplete(keep: seq<bool>, i: nat)
    requires i < |keep| && keep[i]
    ensures i in Positions(keep)
    decreases |keep|
  {
    var later := Positions(keep[1..]);
    var shifted := Shift(later);
    assert Positions(keep) == if keep[0] then [0] + shifted else shifted;
    if i > 0 {
      assert keep[1..][i - 1] == keep[i];
      PositionsComplete(keep[1..], i - 1);
      var k :| 0 <= k < |later| && later[k] == i - 1;
      assert shifted[k] == i;
    }
  }

  /** With no repeats, every value occurs at most once. */
  lemma {:induction false} NoDupCount<T>(xs: seq<T>, x: T)
    requires NoDup(xs)
    ensures multiset(xs)[x] <= 1
    decreases |xs|
  {
    if xs != [] {
      var tail := xs[1..];
      assert NoDup(tail) by {
        forall i, j | 0 <= i < j < |tail| ensures tail[i] != tail[j] {
          assert tail[i] == xs[i + 1] && tail[j] == xs[j + 1];
        }
      }
      NoDupCount(tail, x);
      assert xs == [xs[0]] + tail;
      assert multiset(xs) == multiset{xs[0]} + multiset(tail);
      if x == xs[0] {
        assert x !in tail by {
          forall k | 0 <= k < |tail| ensures tail[k] != x {
            assert tail[k] == xs[k + 1];
          }
        }
      }
    }
  }

  /** A value at two positions occurs at least twice. */
  lemma TwiceCounted<T>(ys: seq<T>, i: nat, j: nat)
    requires i < j < |ys| && ys[i] == ys[j]
    ensures multiset(ys)[ys[j]] >= 2
  {
    var x := ys[j];
    assert ys == ys[..j] + [x] + ys[j + 1..];
    assert ys[..j][i] == x;
    assert x in multiset(ys[..j]);
  }

  /** A reordering of a list without repeats has no repeats. */
  lemma NoDupOfPermutation<T>(xs: seq<T>, ys: seq<T>)
    requires NoDup(xs) && multiset(xs) == multiset(ys)
    ensures NoDup(ys)
  {
    forall i, j | 0 <= i < j < |ys| ensures ys[i] != ys[j] {
      if ys[i] == ys[j] {
        TwiceCounted(ys, i, j);
        NoDupCount(xs, ys[j]);
      }
    }
  }
}

=== FILE: inspector.dfy ===
/** The content inspector behind the path and value panes: type detection,
    conversion, and the text each pane finally shows. */
module Inspector {
  import opened Wrappers
  import Text
  import Percent
  import Query
  import Collections

  /** The radio-button labels, which double as type names. */
  const JSON: string := "JSON"
  const URL: string := "URL"
  const RAW: string := "Raw"
  const AUTO: string := "Auto"

  const ILLEGAL_JSON: string := "<ILLEGAL JSON>"
  const EMPTY: string := "<EMPTY>"

  /** `json.dumps(json.loads(raw), ensure_ascii=False, indent=4)`, with `None`
      standing for the `JSONDecodeError` that `json.loads` raises. */
  type JsonReformat = string -> Option<string>

  /** The JSON test looks at the undecoded text only. */
  predicate LooksLikeJson(text: string) {
    |text| > 0 && (text[0] == '{' || text[0] == '[')
  }

  /** `detectType`: JSON by the first character, otherwise URL when the decoded
      text holds a `?`, otherwise Raw. */
  function DetectType(text: string): (kind: string)
    ensures kind == JSON || kind == URL || kind == RAW
    ensures kind == JSON <==> LooksLikeJson(text)
    ensures kind == URL <==> !LooksLikeJson(text) && '?' in Percent.Unquote(text)
  {
    if LooksLikeJson(text) then JSON
    else if '?' in Percent.Unquote(text) then URL
    else RAW
  }

  /** A JSON document that happens to hold a `?` is still JSON. */
  lemma JsonCheckPrecedesUrlCheck(text: string)
    requires LooksLikeJson(text) && '?' in Percent.Unquote(text)
    ensures DetectType(text) == JSON
  {
  }

  /** Outside JSON, a text is a URL exactly when it holds a literal `?` or an
      escaped one (`%3F`). */
  lemma UrlDetectedByQuestionMark(text: string)
    requires !LooksLikeJson(text)
    ensures DetectType(text) == URL <==> ('?' in text || Percent.HasEscapedQuestion(text))
  {
    if '?' in text {
      Percent.UnquoteKeeps(text, '?');
    } else if Percent.HasEscapedQuestion(text) {
      Percent.EscapedQuestionDecodes(text);
    } else if '?' in Percent.Unquote(text) {
      Percent.UnquoteQuestionOrigin(text);
    }
  }

  /** `convertText`: URL text is decoded and rendered, JSON text is reformatted
      (or fails), and any other type name leaves the text as it is. */
  function ConvertText(raw: string, kind: string, json: JsonReformat): (r: Option<string>)
    ensures kind != URL && kind != JSON ==> r == Some(raw)
    ensures r == None <==> kind == JSON && json(raw) == None
    ensures kind == URL ==> r == Some(Query.UrlRender(Percent.Unquote(raw)))
    ensures kind == JSON ==> r == json(raw)
  {
    if kind == URL then Some(Query.UrlRender(Percent.Unquote(raw)))
    else if kind == JSON then json(raw)
    else Some(raw)
  }

  /** `convertTextOrIllegal`: a JSON decode failure becomes a fixed message. */
  function ConvertTextOrIllegal(raw: string, kind: string, json: JsonReformat): (text: string)
    ensures ConvertText(raw, kind, json).Some? ==> text == ConvertText(raw, kind, json).value
    ensures ConvertText(raw, kind, json).None? ==> text == ILLEGAL_JSON
    ensures kind == JSON && json(raw).None? ==> text == ILLEGAL_JSON
  {
    match ConvertText(raw, kind, json)
    case Some(t) => t
    case None => ILLEGAL_JSON
  }

  /** The type a pane uses: its checked radio button, or the detected type under Auto. */
  function Resolve(raw: string, selected: string): string {
    if selected == AUTO then DetectType(raw) else selected
  }

  /** `refreshPath`: the converted path, shown as it is. */
  function PathPane(stored: Option<string>, selected: string, json: JsonReformat): string {
    var raw := stored.GetOr("");
    ConvertTextOrIllegal(raw, Resolve(raw, selected), json)
  }

  /** `refreshValue`: the converted value, with `<EMPTY>` in place of an empty
      conversion result. */
  function ValuePane(stored: Option<string>, selected: string, json: JsonReformat): (shown: string)
    ensures var raw := stored.GetOr("");
            var converted := ConvertTextOrIllegal(raw, Resolve(raw, selected), json);
            (converted == "" ==> shown == EMPTY) && (converted != "" ==> shown == converted)
    ensures shown != ""
  {
    var raw := stored.GetOr("");
    var converted := ConvertTextOrIllegal(raw, Resolve(raw, selected), json);
    if converted == "" then EMPTY else converted
  }

  /** The two panes convert alike; only the value pane puts `<EMPTY>` in place
      of an empty result. */
  lemma ValuePaneIsPathPaneWithEmpty(stored: Option<string>, selected: string, json: JsonReformat)
    ensures var path := PathPane(stored, selected, json);
            ValuePane(stored, selected, json) == if path == "" then EMPTY else path
  {
  }

  /** The path pane never substitutes `<EMPTY>`: an empty path shows as empty
      under each of its radio buttons. */
  lemma PathPaneShowsEmptyAsEmpty(selected: string, json: JsonReformat)
    requires selected == AUTO || selected == RAW || selected == URL
    ensures PathPane(Some(""), selected, json) == ""
    ensures PathPane(None, selected, json) == ""
  {
    UrlViewOfNothing();
    Query.UrlWithoutQuestionMark("");
    assert DetectType("") == RAW;
  }

  /** An empty prefix with an empty query renders as nothing. */
  lemma UrlViewOfNothing()
    ensures Query.UrlView("", "") == ""
  {
    assert Query.ParseQsl("") == [];
    assert Query.QueryView("") == "";
    assert "" + ("\n" + "") == "\n";
    assert Text.AllSpace("\n");
  }

  /** The substitution looks at the converted text, not at the stored value:
      an empty value under the JSON button fails to decode instead. */
  lemma EmptyValueUnderJsonIsIllegal(json: JsonReformat)
    requires json("") == None
    ensures ValuePane(Some(""), JSON, json) == ILLEGAL_JSON
  {
  }

  /** ... and a non-empty value can convert to nothing: `?` is a URL with an
      empty prefix and no pairs. */
  lemma QuestionMarkValueShowsEmpty(json: JsonReformat)
    ensures ValuePane(Some("?"), AUTO, json) == EMPTY
  {
    assert DetectType("?") == URL;
    assert "?" == "" + ['?'] + "";
    Query.UrlDropsMiddleSegments("", "", "");
    assert "" + "?" + "" == "?";
    UrlViewOfNothing();
  }
}

=== FILE: mirror.dfy ===
/** The tree mirror: how the explorer builds its local tree of znodes from the
    remote namespace, one expansion at a time, and what a refresh shows. */
module Mirror {
  import opened Wrappers
  import Text
  import Percent
  import Paths
  import Collections
  import Inspector

  /** A znode name as the server lists it; ZooKeeper names never hold `/`. */
  type Name = s: string | '/' !in s

  /** The errors a remote call raises; they reach the caller unchanged. */
  datatype RemoteError = NoNode(path: string) | SessionError

  /** The part of `zk.get(path)` the tree uses: the decoded value and
      `stat.numChildren`. */
  datatype Znode = Znode(value: string, numChildren: nat)

  /** The remote namespace as one session sees it: `zk.get_children` and `zk.get`. */
  datatype Remote = Remote(
    listChildren: string -> Result<seq<Name>, RemoteError>,
    get: string -> Result<Znode, RemoteError>)

  /** One row of the tree: the title shown in the first column, the raw joined
      path stored with it, the value column, and the child rows. */
  datatype Node = Node(path: string, title: string, value: string, children: seq<Node>)

  /** The invisible root item of a freshly cleared model. */
  const EmptyModel: Node := Node("", "", "", [])

  /** The tree after an expansion, and the error that cut it short, if any.
      Rows appended before the error stay in the tree. */
  datatype Expansion = Expansion(node: Node, error: Option<RemoteError>)

  /** The first-column text of a row: the unquoted name, with ` [n]` appended
      only for a node that has children. */
  function Title(name: string, numChildren: nat): string {
    var shown := Percent.Unquote(name);
    if numChildren == 0 then shown
    else shown + " [" + Text.Decimal(numChildren) + "]"
  }

  /** The title opens with the unquoted name and is exactly that name when the
      node has no children. */
  lemma TitleShowsName(name: string, numChildren: nat)
    ensures var t := Title(name, numChildren);
            && |t| >= |Percent.Unquote(name)| && t[..|Percent.Unquote(name)|] == Percent.Unquote(name)
            && (t == Percent.Unquote(name) <==> numChildren == 0)
            && (numChildren > 0 ==> t == Percent.Unquote(name) + " [" + Text.Decimal(numChildren) + "]")
  {
    var shown := Percent.Unquote(name);
    if numChildren != 0 {
      var t := shown + " [" + Text.Decimal(numChildren) + "]";
      assert t[..|shown|] == shown;
      assert |t| > |shown|;
    }
  }

  /** Two rows show the same item (path, title, value), whatever their children. */
  predicate SameItem(a: Node, b: Node) {
    a.path == b.path && a.title == b.title && a.value == b.value
  }

  /** `c` is the row that expanding `parentPath` builds for child `name`: the raw
      joined path (not the unquoted one), its title and value from `zk.get`; only
      the synthetic `/` row is expanded further. */
  ghost predicate IsRow(c: Node, parentPath: string, name: string, remote: Remote) {
    var p := Paths.JoinPath(parentPath, name);
    && remote.get(p).Success?
    && c.path == p
    && c.title == Title(name, remote.get(p).value.numChildren)
    && c.value == remote.get(p).value.value
    && (name != "/" ==> c.children == [])
  }

  /** `e` extends `node` by rows for a prefix of `names`, in order, and by all
      of them when no error occurred. */
  ghost predicate AppendsRows(node: Node, e: Expansion, parentPath: string, names: seq<string>, remote: Remote) {
    var n := |node.children|;
    && SameItem(e.node, node)
    && n <= |e.node.children| <= n + |names|
    && e.node.children[..n] == node.children
    && (forall i :: n <= i < |e.node.children| ==> IsRow(e.node.children[i], parentPath, names[i - n], remote))
    && (e.error.None? ==> |e.node.children| == n + |names|)
  }

  /** A name as the sort key Python compares. */
  function NameKey(n: Name): string { n }

  /** Python's `sorted` on the listed names: ascending raw (undecoded) order. */
  function SortNames(names: seq<Name>): (r: seq<Name>)
    ensures Collections.SortedBy(r, NameKey)
    ensures multiset(r) == multiset(names)
  {
    Collections.SortBy(names, NameKey)
  }

  /** ZooKeeper lists each child once, so the sorted names are strictly
      ascending. */
  lemma SortNamesStrict(names: seq<Name>)
    requires Collections.NoDup(names)
    ensures var r := SortNames(names);
            forall i, j :: 0 <= i < j < |r| ==> Collections.LessEq(r[i], r[j]) && r[i] != r[j]
  {
    var r := SortNames(names);
    Collections.NoDupOfPermutation(names, r);
    forall i, j | 0 <= i < j < |r| ensures Collections.LessEq(r[i], r[j]) {
      assert Collections.LessEq(NameKey(r[i]), NameKey(r[j]));
    }
  }

  /** Only the empty path can recurse, and only once. */
  function Rank(path: string): nat {
    if path == "" then 1 else 0
  }

  /** `expandPath(path, node)`: list the children of `path` (the empty path
      lists the single synthetic name `/`), and append one row per name in
      sorted order; the `/` row is expanded in turn. */
  function ExpandPath(path: string, node: Node, remote: Remote): (e: Expansion)
    ensures path != "" && remote.listChildren(path).Failure? ==>
              e == Expansion(node, Some(remote.listChildren(path).error))
    ensures path != "" && remote.listChildren(path).Success? ==>
              AppendsRows(node, e, path, SortNames(remote.listChildren(path).value), remote)
    ensures path == "" ==> AppendsRows(node, e, path, ["/"], remote)
    ensures SameItem(e.node, node) && e.node.children[..|node.children|] == node.children
    decreases Rank(path), 1
  {
    if path == "" then AppendChildren(path, ["/"], node, remote)
    else
      match remote.listChildren(path)
      case Failure(err) => Expansion(node, Some(err))
      case Success(names) => AppendChildren(path, SortNames(names), node, remote)
  }

  /** The loop of `expandPath` over the sorted names. A failing `zk.get`, or a
      failing expansion of the `/` row, stops it with the rows so far kept. */
  function AppendChildren(path: string, names: seq<string>, node: Node, remote: Remote): (e: Expansion)
    requires path != "" ==> forall i :: 0 <= i < |names| ==> names[i] != "/"
    ensures AppendsRows(node, e, path, names, remote)
    decreases Rank(path), 0, |names|
  {
    if names == [] then
      assert node.children[..|node.children|] == node.children;
      Expansion(node, None)
    else
      var name := names[0];
      var childPath := Paths.JoinPath(path, name);
      match remote.get(childPath)
      case Failure(err) =>
        assert node.children[..|node.children|] == node.children;
        Expansion(node, Some(err))
      case Success(z) =>
        var row := Node(childPath, Title(name, z.numChildren), z.value, []);
        var child :=
          if name == "/" then
            Paths.JoinBootstrap();
            ExpandPath(childPath, row, remote)
          else Expansion(row, None);
        var grown := node.(children := node.children + [child.node]);
        if child.error.Some? then
          AppendsFirstRow(node, child.node, path, names, remote);
          Expansion(grown, child.error)
        else
          var e := AppendChildren(path, names[1..], grown, remote);
          AppendsRest(node, child.node, e, path, names, remote);
          e
  }

  /** Stopping right after the first row still appends a prefix of the rows. */
  lemma AppendsFirstRow(node: Node, row: Node, path: string, names: seq<string>, remote: Remote)
    requires names != [] && IsRow(row, path, names[0], remote)
    ensures forall err :: AppendsRows(node, Expansion(node.(children := node.children + [row]), Some(err)), path, names, remote)
  {
    var grown := node.children + [row];
    assert grown[..|node.children|] == node.children;
  }

  /** The rows after the first one continue the prefix. */
  lemma AppendsRest(node: Node, row: Node, e: Expansion, path: string, names: seq<string>, remote: Remote)
    requires names != [] && IsRow(row, path, names[0], remote)
    requires AppendsRows(node.(children := node.children + [row]), e, path, names[1..], remote)
    ensures AppendsRows(node, e, path, names, remote)
  {
    var n := |node.children|;
    var kids := e.node.children;
    var grown := node.(children := node.children + [row]);
    assert |grown.children| == n + 1 && SameItem(grown, node);
    assert kids[..n + 1] == node.children + [row];
    GrownPrefix(kids, node.children, row);
    assert forall i :: n + 1 <= i < |kids| ==> IsRow(kids[i], path, names[1..][i - (n + 1)], remote);
    RowsShift(kids, n, path, names, remote);
  }

  lemma GrownPrefix<T>(kids: seq<T>, base: seq<T>, row: T)
    requires |base| < |kids| && kids[..|base| + 1] == base + [row]
    ensures kids[..|base|] == base && kids[|base|] == row
  {
    assert kids[..|base|] == kids[..|base| + 1][..|base|];
    assert kids[|base|] == kids[..|base| + 1][|base|];
  }

  /** Rows for `names[1..]` from position `n + 1` on, after a row for
      `names[0]` at `n`, are rows for `names` from `n` on. */
  lemma RowsShift(kids: seq<Node>, n: nat, path: string, names: seq<string>, remote: Remote)
    requires n < |kids| && names != [] && IsRow(kids[n], path, names[0], remote)
    requires |kids| <= n + |names|
    requires forall i :: n + 1 <= i < |kids| ==> IsRow(kids[i], path, names[1..][i - (n + 1)], remote)
    ensures forall i :: n <= i < |kids| ==> IsRow(kids[i], path, names[i - n], remote)
  {
    forall i | n + 1 <= i < |kids|
      ensures IsRow(kids[i], path, names[i - n], remote)
    {
      assert names[1..][i - (n + 1)] == names[i - n];
    }
  }

  /** The loop under a real path reports an error exactly when some `zk.get`
      fails, and the error it reports is that of the first failing name: the
      one right after the rows it kept. */
  lemma {:induction false} AppendChildrenReports(path: string, names: seq<string>, node: Node, remote: Remote)
    requires path != "" && forall i :: 0 <= i < |names| ==> names[i] != "/"
    ensures var e := AppendChildren(path, names, node, remote);
            && (e.error.None? <==> forall i :: 0 <= i < |names| ==> remote.get(Paths.JoinPath(path, names[i])).Success?)
            && (e.error.Some? ==>
                  var k := |e.node.children| - |node.children|;
                  0 <= k < |names| && remote.get(Paths.JoinPath(path, names[k])) == Failure(e.error.value))
    decreases |names|
  {
    if names != [] {
      var childPath := Paths.JoinPath(path, names[0]);
      match remote.get(childPath)
      case Failure(err) =>
        assert AppendChildren(path, names, node, remote) == Expansion(node, Some(err));
      case Success(z) =>
        var row := Node(childPath, Title(names[0], z.numChildren), z.value, []);
        var grown := node.(children := node.children + [row]);
        var tail := names[1..];
        assert AppendChildren(path, names, node, remote) == AppendChildren(path, tail, grown, remote);
        assert forall i :: 0 <= i < |tail| ==> tail[i] == names[i + 1];
        AppendChildrenReports(path, tail, grown, remote);
    }
  }

  /** Expanding a real path reports an error exactly when the listing fails or
      `zk.get` fails for one of the listed names; a `get` error is the one of
      the first failing name in sorted order. */
  lemma ExpandPathReports(path: string, node: Node, remote: Remote)
    requires path != ""
    ensures var e := ExpandPath(path, node, remote);
            e.error.None? <==>
              && remote.listChildren(path).Success?
              && forall name :: name in remote.listChildren(path).value ==> remote.get(Paths.JoinPath(path, name)).Success?
    ensures var e := ExpandPath(path, node, remote);
            e.error.Some? && remote.listChildren(path).Success? ==>
              var sorted := SortNames(remote.listChildren(path).value);
              var k := |e.node.children| - |node.children|;
              0 <= k < |sorted| && remote.get(Paths.JoinPath(path, sorted[k])) == Failure(e.error.value)
  {
    if remote.listChildren(path).Success? {
      var names := remote.listChildren(path).value;
      var sorted := SortNames(names);
      assert ExpandPath(path, node, remote) == AppendChildren(path, sorted, node, remote);
      AppendChildrenReports(path, sorted, node, remote);
      SameMembers(names, sorted);
    }
  }

  /** Two lists with the same multiset have the same members. */
  lemma SameMembers<T>(a: seq<T>, b: seq<T>)
    requires multiset(a) == multiset(b)
    ensures forall x :: x in a <==> x in b
  {
    forall x ensures x in a <==> x in b {
      assert x in a <==> x in multiset(a);
      assert x in b <==> x in multiset(b);
    }
  }

  /** The bootstrap: expanding the empty path appends the single row `/`, and
      that row holds the expansion of the root path. */
  lemma BootstrapExpandsRoot(node: Node, remote: Remote)
    requires remote.get("/").Success?
    ensures Paths.JoinPath("", "/") == "/"
    ensures var z := remote.get("/").value;
            var row := Node("/", Title("/", z.numChildren), z.value, []);
            var sub := ExpandPath("/", row, remote);
            ExpandPath("", node, remote)
              == Expansion(node.(children := node.children + [sub.node]), sub.error)
  {
    Paths.JoinBootstrap();
  }

  /** `expandLeaf`: expand the node only when it has no rows yet. */
  function ExpandLeaf(node: Node, remote: Remote): (e: Expansion)
    ensures SameItem(e.node, node)
    ensures node.children == [] ==> e == ExpandPath(node.path, node, remote)
    ensures node.children != [] ==> e == Expansion(node, None)
  {
    if node.children == [] then ExpandPath(node.path, node, remote)
    else Expansion(node, None)
  }

  /** Once a node has rows, expanding it again changes nothing, whatever the
      remote side holds by then. */
  lemma ExpandLeafIdempotent(node: Node, r1: Remote, r2: Remote)
    requires ExpandLeaf(node, r1).node.children != []
    ensures ExpandLeaf(ExpandLeaf(node, r1).node, r2) == Expansion(ExpandLeaf(node, r1).node, None)
  {
  }

  /** There is no separate "expanded, no children" state: a node whose expansion
      found nothing is listed again on the next attempt. */
  lemma ExpandLeafRetriesChildless(node: Node, r1: Remote, r2: Remote)
    requires ExpandLeaf(node, r1).node.children == []
    ensures ExpandLeaf(ExpandLeaf(node, r1).node, r2) == ExpandPath(node.path, ExpandLeaf(node, r1).node, r2)
  {
  }

  /** The names of a successful expansion of a node without rows, in the order
      of its new rows: sorted by raw name, and a permutation of the listing. */
  lemma ExpansionOrdersByRawName(node: Node, remote: Remote)
    requires node.path != "" && node.children == []
    requires remote.listChildren(node.path).Success?
    requires ExpandLeaf(node, remote).error.None?
    ensures var names := SortNames(remote.listChildren(node.path).value);
            var rows := ExpandLeaf(node, remote).node.children;
            && |rows| == |names|
            && Collections.SortedBy(names, NameKey)
            && multiset(names) == multiset(remote.listChildren(node.path).value)
            && (forall i :: 0 <= i < |rows| ==> IsRow(rows[i], node.path, names[i], remote))
  {
    var e := ExpandPath(node.path, node, remote);
    assert ExpandLeaf(node, remote) == e;
    ExpandedRows(node, e, remote.listChildren(node.path).value, remote);
  }

  /** A row of the tree, named by its row number at each level; `[]` is the
      node itself. */
  predicate ValidAddress(root: Node, addr: seq<nat>)
    decreases |addr|
  {
    addr == [] || (addr[0] < |root.children| && ValidAddress(root.children[addr[0]], addr[1..]))
  }

  function NodeAt(root: Node, addr: seq<nat>): Node
    requires ValidAddress(root, addr)
    decreases |addr|
  {
    if addr == [] then root else NodeAt(root.children[addr[0]], addr[1..])
  }

  /** `expandLeaf` on the row at `addr`, with the grown row put back in place. */
  function ExpandAt(root: Node, addr: seq<nat>, remote: Remote): (e: Expansion)
    requires ValidAddress(root, addr)
    ensures ValidAddress(e.node, addr)
    ensures NodeAt(e.node, addr) == ExpandLeaf(NodeAt(root, addr), remote).node
    ensures e.error == ExpandLeaf(NodeAt(root, addr), remote).error
    ensures SameItem(e.node, root) && |e.node.children| >= |root.children|
    decreases |addr|
  {
    if addr == [] then ExpandLeaf(root, remote)
    else
      var i := addr[0];
      var sub := ExpandAt(root.children[i], addr[1..], remote);
      Expansion(root.(children := root.children[i := sub.node]), sub.error)
  }

  /** Neither address lies on the path to the other. */
  predicate Apart(a: seq<nat>, b: seq<nat>) {
    exists k :: 0 <= k < |a| && k < |b| && a[k] != b[k] && a[..k] == b[..k]
  }

  /** Expanding one row leaves every row off its path as it was. */
  lemma {:induction false} ExpandAtLeavesOthers(root: Node, addr: seq<nat>, other: seq<nat>, remote: Remote)
    requires ValidAddress(root, addr) && ValidAddress(root, other)
    requires Apart(addr, other)
    ensures ValidAddress(ExpandAt(root, addr, remote).node, other)
    ensures NodeAt(ExpandAt(root, addr, remote).node, other) == NodeAt(root, other)
    decreases |addr|
  {
    var k :| 0 <= k < |addr| && k < |other| && addr[k] != other[k] && addr[..k] == other[..k];
    if k > 0 {
      assert addr[0] == addr[..k][0] == other[0];
      assert addr[1..][..k - 1] == addr[..k][1..] == other[..k][1..] == other[1..][..k - 1];
      assert Apart(addr[1..], other[1..]) by {
        assert addr[1..][k - 1] != other[1..][k - 1];
      }
      ExpandAtLeavesOthers(root.children[addr[0]], addr[1..], other[1..], remote);
    }
  }

  /** Clicking a row that already has rows leaves the whole tree as it was. */
  lemma {:induction false} ExpandAtExpandedIsNoOp(root: Node, addr: seq<nat>, remote: Remote)
    requires ValidAddress(root, addr) && NodeAt(root, addr).children != []
    ensures ExpandAt(root, addr, remote) == Expansion(root, None)
    decreases |addr|
  {
    if addr != [] {
      ExpandAtExpandedIsNoOp(root.children[addr[0]], addr[1..], remote);
      assert root.children[addr[0] := root.children[addr[0]]] == root.children;
    }
  }

  function TitleKey(n: Node): string { n.title }

  /** Qt's `sortByColumn(0)`: every level of the tree ordered by title. */
  ghost predicate SortedTree(n: Node)
    decreases n
  {
    && Collections.SortedBy(n.children, TitleKey)
    && forall i :: 0 <= i < |n.children| ==> SortedTree(n.children[i])
  }

  /** The model's `sort` on the first column: recursively, each node's rows
      ordered by their titles. */
  function SortTree(n: Node): (r: Node)
    ensures SameItem(r, n) && |r.children| == |n.children|
    ensures SortedTree(r)
    decreases n, 1
  {
    var kids := SortedRows(n);
    var sorted := Collections.SortBy(kids, TitleKey);
    assert forall j :: 0 <= j < |sorted| ==> SortedTree(sorted[j]) by {
      forall j | 0 <= j < |sorted| ensures SortedTree(sorted[j]) {
        assert sorted[j] in multiset(kids);
      }
    }
    assert |sorted| == |multiset(sorted)| == |multiset(kids)| == |kids|;
    n.(children := sorted)
  }

  /** The rows of `n`, each sorted in turn, still in their old order. */
  function SortedRows(n: Node): (kids: seq<Node>)
    ensures |kids| == |n.children|
    ensures forall i :: 0 <= i < |kids| ==> SameItem(kids[i], n.children[i]) && SortedTree(kids[i])
    decreases n, 0
  {
    seq(|n.children|, i requires 0 <= i < |n.children| => SortTree(n.children[i]))
  }

  /** Sorting neither drops nor invents rows: the rows of the sorted node are a
      reordering of the rows sorted in place. */
  lemma SortTreeKeepsRows(n: Node)
    ensures multiset(SortTree(n).children) == multiset(SortedRows(n))
  {
  }

  /** The sorted form of each child is among the sorted node's children. */
  lemma SortTreeKeepsRow(n: Node, k: nat)
    requires k < |n.children|
    ensures SortTree(n.children[k]) in SortTree(n).children
  {
    var kids := SortedRows(n);
    SortTreeKeepsRows(n);
    assert kids[k] == SortTree(n.children[k]);
    assert kids[k] in multiset(kids);
  }

  /** A node with a single row keeps that row, sorted. */
  lemma SortTreeSingleRow(n: Node)
    requires |n.children| == 1
    ensures SortTree(n).children == [SortTree(n.children[0])]
  {
    SortTreeKeepsRow(n, 0);
  }

  /** Sorting a sorted tree changes nothing. */
  lemma {:induction false} SortTreeOfSorted(n: Node)
    requires SortedTree(n)
    ensures SortTree(n) == n
    decreases n
  {
    var kids := SortedRows(n);
    forall i | 0 <= i < |n.children| ensures kids[i] == n.children[i] {
      SortTreeOfSorted(n.children[i]);
    }
    assert kids == n.children;
    Collections.SortBySorted(n.children, TitleKey);
  }

  /** What a refreshed leaf puts in the two panes; the metadata block is not modelled. */
  datatype Detail = Detail(pathText: string, valueText: string)

  /** The checked radio button of each pane, and the JSON reformatter. */
  datatype Panes = Panes(pathMode: string, valueMode: string, json: Inspector.JsonReformat)

  /** `refreshLeaf`: fetch the row's znode afresh and show its raw path and
      its current value through the two panes. */
  function RefreshLeaf(node: Node, remote: Remote, panes: Panes): (r: Result<Detail, RemoteError>)
    ensures r.Failure? <==> remote.get(node.path).Failure?
    ensures r.Success? ==> r.value.valueText != ""
    ensures r.Success? ==> r.value.pathText == Inspector.PathPane(Some(node.path), panes.pathMode, panes.json)
    ensures r.Success? ==> r.value.valueText == Inspector.ValuePane(Some(remote.get(node.path).value.value), panes.valueMode, panes.json)
  {
    match remote.get(node.path)
    case Failure(err) => Failure(err)
    case Success(z) =>
      Success(Detail(
        Inspector.PathPane(Some(node.path), panes.pathMode, panes.json),
        Inspector.ValuePane(Some(z.value), panes.valueMode, panes.json)))
  }

  /** The window after a refresh: the tree, the detail of the first row, and the
      error that cut the refresh short, if any. */
  datatype Refresh = Refresh(tree: Node, detail: Option<Detail>, error: Option<RemoteError>)

  /** `refreshTree`: clear the model, expand the empty path (which lists `/`
      and its children), sort the tree by title, and show the first row. */
  function RefreshTree(remote: Remote, panes: Panes): (r: Refresh)
    ensures r.error.None? <==> r.detail.Some?
    ensures r.error.None? ==> |r.tree.children| == 1 && r.tree.children[0].path == "/" && SortedTree(r.tree)
    ensures r.error.None? ==> RefreshLeaf(r.tree.children[0], remote, panes) == Success(r.detail.value)
  {
    var e := ExpandPath("", EmptyModel, remote);
    if e.error.Some? then Refresh(e.node, None, e.error)
    else
      var sorted := SortTree(e.node);
      assert IsRow(e.node.children[0], "", "/", remote);
      Paths.JoinBootstrap();
      SortTreeSingleRow(e.node);
      match RefreshLeaf(sorted.children[0], remote, panes)
      case Failure(err) => Refresh(sorted, None, Some(err))
      case Success(d) => Refresh(sorted, Some(d), None)
  }

  /** A refresh succeeds exactly when `zk.get("/")`, the listing of `/` and
      `zk.get` of every listed child all succeed. */
  lemma RefreshReports(remote: Remote, panes: Panes)
    ensures RefreshTree(remote, panes).error.None? <==>
              && remote.get("/").Success?
              && remote.listChildren("/").Success?
              && forall name :: name in remote.listChildren("/").value ==> remote.get(Paths.JoinPath("/", name)).Success?
  {
    Paths.JoinBootstrap();
    var e := ExpandPath("", EmptyModel, remote);
    if remote.get("/").Failure? {
      assert e.error.Some?;
    } else {
      var z := remote.get("/").value;
      var row := Node("/", Title("/", z.numChildren), z.value, []);
      var sub := ExpandPath("/", row, remote);
      BootstrapExpandsRoot(EmptyModel, remote);
      ExpandPathReports("/", row, remote);
      if sub.error.None? {
        assert e.node.children == [sub.node];
        SortTreeSingleRow(e.node);
        assert SortTree(e.node).children[0].path == "/";
      }
    }
  }

  /** After a successful refresh the single top row is `/`, and its rows are
      exactly the root's children, one per listed name, ordered by title. */
  lemma RefreshShowsRootListing(remote: Remote, panes: Panes)
    requires RefreshTree(remote, panes).error.None?
    ensures remote.get("/").Success? && remote.listChildren("/").Success?
    ensures var top := RefreshTree(remote, panes).tree.children[0];
            var names := remote.listChildren("/").value;
            && top.title == Title("/", remote.get("/").value.numChildren)
            && |top.children| == |names|
            && Collections.SortedBy(top.children, TitleKey)
            && (forall c :: c in top.children ==> exists name :: name in names && IsRow(c, "/", name, remote))
            && (forall name :: name in names ==> exists c :: c in top.children && IsRow(c, "/", name, remote))
  {
    var sub := RefreshTopIsRoot(remote, panes);
    var row := Node("/", Title("/", remote.get("/").value.numChildren), remote.get("/").value.value, []);
    SortedRowsAreListing(row, sub, remote.listChildren("/").value, remote);
  }

  /** The top row after a successful refresh is the sorted expansion of `/`. */
  lemma RefreshTopIsRoot(remote: Remote, panes: Panes) returns (sub: Expansion)
    requires RefreshTree(remote, panes).error.None?
    ensures remote.get("/").Success?
    ensures var z := remote.get("/").value;
            sub == ExpandPath("/", Node("/", Title("/", z.numChildren), z.value, []), remote)
    ensures sub.error.None?
    ensures RefreshTree(remote, panes).tree.children[0] == SortTree(sub.node)
  {
    var e := ExpandPath("", EmptyModel, remote);
    assert e.error.None?;
    assert IsRow(e.node.children[0], "", "/", remote);
    Paths.JoinBootstrap();
    var z := remote.get("/").value;
    var row := Node("/", Title("/", z.numChildren), z.value, []);
    sub := ExpandPath("/", row, remote);
    BootstrapExpandsRoot(EmptyModel, remote);
    assert e.node.children == [sub.node];
    SortTreeSingleRow(e.node);
  }

  /** Sorting the rows a successful expansion of a childless row appended gives
      one row per listed name. */
  lemma SortedRowsAreListing(row: Node, sub: Expansion, names: seq<Name>, remote: Remote)
    requires row.path == "/" && row.children == []
    requires remote.listChildren("/") == Success(names)
    requires sub == ExpandPath("/", row, remote) && sub.error.None?
    ensures var top := SortTree(sub.node);
            && top.title == row.title
            && |top.children| == |names|
            && Collections.SortedBy(top.children, TitleKey)
            && (forall c :: c in top.children ==> exists name :: name in names && IsRow(c, "/", name, remote))
            && (forall name :: name in names ==> exists c :: c in top.children && IsRow(c, "/", name, remote))
  {
    var sortedNames := SortNames(names);
    ExpandedRows(row, sub, names, remote);
    SortLeavesPermutes(sub.node);
    var rows, top := sub.node.children, SortTree(sub.node).children;
    RowsFromTop(rows, sortedNames, top, names, remote);
    RowsFromNames(rows, sortedNames, top, names, remote);
    assert |top| == |multiset(top)| == |multiset(rows)| == |rows|;
    assert |sortedNames| == |multiset(sortedNames)| == |multiset(names)| == |names|;
  }

  /** The rows a successful expansion of a childless row appends: one leaf per
      sorted name. */
  lemma ExpandedRows(row: Node, sub: Expansion, names: seq<Name>, remote: Remote)
    requires row.path != "" && row.children == []
    requires remote.listChildren(row.path) == Success(names)
    requires sub == ExpandPath(row.path, row, remote) && sub.error.None?
    ensures SameItem(sub.node, row)
    ensures |sub.node.children| == |SortNames(names)|
    ensures forall k :: 0 <= k < |sub.node.children| ==>
              IsRow(sub.node.children[k], row.path, SortNames(names)[k], remote) && sub.node.children[k].children == []
  {
    assert AppendsRows(row, sub, row.path, SortNames(names), remote);
    assert sub.node.children[..0] == [];
  }

  /** A reordered row is still the row of one of the listed names. */
  lemma RowsFromTop(rows: seq<Node>, tags: seq<Name>, top: seq<Node>, names: seq<Name>, remote: Remote)
    requires |tags| == |rows|
    requires forall k :: 0 <= k < |rows| ==> IsRow(rows[k], "/", tags[k], remote)
    requires multiset(top) == multiset(rows) && multiset(tags) == multiset(names)
    ensures forall c :: c in top ==> exists name :: name in names && IsRow(c, "/", name, remote)
  {
    forall c | c in top ensures exists name :: name in names && IsRow(c, "/", name, remote) {
      assert c in multiset(top);
      var k :| 0 <= k < |rows| && rows[k] == c;
      assert tags[k] in multiset(tags);
      assert tags[k] in names && IsRow(c, "/", tags[k], remote);
    }
  }

  /** Each listed name still has its row after reordering. */
  lemma RowsFromNames(rows: seq<Node>, tags: seq<Name>, top: seq<Node>, names: seq<Name>, remote: Remote)
    requires |tags| == |rows|
    requires forall k :: 0 <= k < |rows| ==> IsRow(rows[k], "/", tags[k], remote)
    requires multiset(top) == multiset(rows) && multiset(tags) == multiset(names)
    ensures forall name :: name in names ==> exists c :: c in top && IsRow(c, "/", name, remote)
  {
    forall name | name in names ensures exists c :: c in top && IsRow(c, "/", name, remote) {
      assert name in multiset(names);
      var k :| 0 <= k < |tags| && tags[k] == name;
      assert rows[k] in multiset(rows);
      assert rows[k] in top && IsRow(rows[k], "/", name, remote);
    }
  }

  /** Sorting a node whose rows are all leaves only reorders them. */
  lemma SortLeavesPermutes(n: Node)
    requires forall k :: 0 <= k < |n.children| ==> n.children[k].children == []
    ensures multiset(SortTree(n).children) == multiset(n.children)
  {
    var kids := SortedRows(n);
    forall i | 0 <= i < |n.children| ensures kids[i] == n.children[i] {
      LeafSorted(n.children[i]);
    }
    assert kids == n.children;
    SortTreeKeepsRows(n);
  }

  /** A row with no rows of its own is unchanged by sorting. */
  lemma LeafSorted(c: Node)
    requires c.children == []
    ensures SortTree(c) == c
  {
    assert SortedTree(c);
    SortTreeOfSorted(c);
  }
}

=== FILE: paths.dfy ===
/** Znode paths: how the explorer joins a parent path and a child name, and
    how a joined path splits back into the two. */
module Paths {
  import opened Text

  /** `f"{path}/{name}".replace("//", "/")`: one collapsing pass over the
      concatenation. */
  function JoinPath(path: string, name: string): string {
    Replace(path + "/" + name, "//", "/")
  }

  /** No two slashes in a row. */
  predicate NoDoubleSlash(s: string) {
    forall k :: 0 <= k < |s| - 1 ==> !(s[k] == '/' && s[k + 1] == '/')
  }

  /** A znode name as ZooKeeper hands it out: non-empty, without `/`. */
  predicate ValidName(n: string) {
    n != "" && '/' !in n
  }

  /** An absolute ZooKeeper path: the root, or `/`-separated non-empty names. */
  predicate ValidPath(p: string) {
    p == "/" || (|p| >= 2 && p[0] == '/' && p[|p| - 1] != '/' && NoDoubleSlash(p))
  }

  /** The collapsing pass leaves a text without double slashes alone. */
  lemma {:induction false} CollapseNothing(s: string)
    requires NoDoubleSlash(s)
    ensures Replace(s, "//", "/") == s
    decreases |s|
  {
    if |s| >= 2 {
      assert s[..2] != "//" by { assert !(s[0] == '/' && s[1] == '/'); }
      CollapseNothing(s[1..]);
      assert s == [s[0]] + s[1..];
    }
  }

  /** The pass cannot join a pair across a boundary whose left side does not
      end in `/`, so it works on the two sides separately. */
  lemma {:induction false} CollapseSplits(a: string, b: string)
    requires a == "" || a[|a| - 1] != '/'
    ensures Replace(a + b, "//", "/") == Replace(a, "//", "/") + Replace(b, "//", "/")
    decreases |a|
  {
    var s := a + b;
    if a == "" {
      assert s == b;
    } else if |a| == 1 {
      if b != "" {
        assert s[..2] == [a[0], b[0]];
        assert s[1..] == b;
      }
    } else {
      assert s[..2] == a[..2];
      if a[..2] == "//" {
        assert s[2..] == a[2..] + b;
        CollapseSplits(a[2..], b);
        assert Replace(s, "//", "/") == "/" + Replace(a[2..] + b, "//", "/");
        assert Replace(a, "//", "/") == "/" + Replace(a[2..], "//", "/");
      } else {
        assert s[1..] == a[1..] + b;
        CollapseSplits(a[1..], b);
        assert Replace(s, "//", "/") == [a[0]] + Replace(a[1..] + b, "//", "/");
        assert Replace(a, "//", "/") == [a[0]] + Replace(a[1..], "//", "/");
      }
    }
  }

  /** A name without `/` is appended after exactly one slash; only double
      slashes already inside `p` are collapsed. */
  lemma JoinAfterPlainParent(p: string, n: string)
    requires p == "" || p[|p| - 1] != '/'
    requires '/' !in n
    ensures JoinPath(p, n) == Replace(p, "//", "/") + "/" + n
  {
    var tail := "/" + n;
    assert p + "/" + n == p + tail;
    CollapseSplits(p, tail);
    SlashThenName(n);
  }

  /** A slash followed by a name without `/` is left alone by the pass. */
  lemma SlashThenName(n: string)
    requires '/' !in n
    ensures Replace("/" + n, "//", "/") == "/" + n
  {
    var tail := "/" + n;
    forall k | 0 <= k < |tail| - 1 ensures !(tail[k] == '/' && tail[k + 1] == '/') {
      assert tail[k + 1] == n[k];
    }
    CollapseNothing(tail);
  }

  /** The bootstrap join of the empty path with the synthetic name `/`. */
  lemma JoinBootstrap()
    ensures JoinPath("", "/") == "/"
  {
    assert "" + "/" + "/" == "//";
    assert Replace("//", "//", "/") == "/" + Replace("", "//", "/");
  }

  /** Under the root, one slash of the pair `//` is dropped. */
  lemma JoinUnderRoot(n: string)
    ensures JoinPath("/", n) == "/" + Replace(n, "//", "/")
  {
    var s := "/" + "/" + n;
    assert s[..2] == "//" && s[2..] == n;
  }

  /** A valid name joined to a valid path gives a valid path one level deeper;
      the empty path acts as the root. */
  lemma JoinValid(p: string, n: string)
    requires ValidPath(p) && ValidName(n)
    ensures JoinPath(p, n) == if p == "/" then "/" + n else p + "/" + n
    ensures ValidPath(JoinPath(p, n))
    ensures p == "/" ==> JoinPath("", n) == JoinPath(p, n)
  {
    if p == "/" {
      JoinUnderRoot(n);
      CollapseNothing(n);
      JoinAfterPlainParent("", n);
      assert Replace("", "//", "/") == "";
    } else {
      var s := p + "/" + n;
      forall k | 0 <= k < |s| - 1 ensures !(s[k] == '/' && s[k + 1] == '/') {
        if k < |p| - 1 {
          assert s[k] == p[k] && s[k + 1] == p[k + 1];
        } else if k == |p| - 1 {
          assert s[k] == p[|p| - 1];
        } else {
          assert s[k + 1] == n[k - |p|];
        }
      }
      CollapseNothing(s);
    }
  }

  /** Position of the last `/` in `s`. */
  function LastSlash(s: string): (i: nat)
    requires '/' in s
    ensures i < |s| && s[i] == '/' && '/' !in s[i + 1..]
    decreases |s|
  {
    if s[|s| - 1] == '/' then |s| - 1
    else
      assert '/' in s[..|s| - 1] by {
        var k :| 0 <= k < |s| && s[k] == '/';
        assert s[..|s| - 1][k] == '/';
      }
      var i := LastSlash(s[..|s| - 1]);
      assert s[i + 1..] == s[..|s| - 1][i + 1..] + [s[|s| - 1]];
      i
  }

  /** The parent path and the name of a path: the inverse of `JoinPath`. */
  function SplitPath(path: string): (string, string)
    requires '/' in path
  {
    var i := LastSlash(path);
    (if i == 0 then "/" else path[..i], path[i + 1..])
  }

  /** The last slash of `head + n` is the one ending `head` when `n` has none. */
  lemma {:induction false} LastSlashBeforeName(head: string, n: string)
    requires head != "" && head[|head| - 1] == '/' && '/' !in n
    ensures '/' in head + n
    ensures LastSlash(head + n) == |head| - 1
    decreases |n|
  {
    var s := head + n;
    assert s[|head| - 1] == '/';
    if n != "" {
      assert s[|s| - 1] == n[|n| - 1];
      assert s[..|s| - 1] == head + n[..|n| - 1];
      LastSlashBeforeName(head, n[..|n| - 1]);
    }
  }

  /** Splitting a parent ending in `/` followed by a name. */
  lemma SplitAfterSlash(head: string, n: string)
    requires head != "" && head[|head| - 1] == '/' && '/' !in n
    ensures '/' in head + n
    ensures SplitPath(head + n) == (if |head| == 1 then "/" else head[..|head| - 1], n)
  {
    LastSlashBeforeName(head, n);
    var s := head + n;
    assert s[|head|..] == n;
    assert s[..|head| - 1] == head[..|head| - 1];
  }

  /** Joining and splitting are inverse on valid paths and names. */
  lemma SplitJoinPath(p: string, n: string)
    requires ValidPath(p) && ValidName(n)
    ensures '/' in JoinPath(p, n)
    ensures SplitPath(JoinPath(p, n)) == (p, n)
  {
    JoinValid(p, n);
    if p == "/" {
      SplitAfterSlash("/", n);
    } else {
      var head := p + "/";
      assert p + "/" + n == head + n;
      SplitAfterSlash(head, n);
      assert head[..|head| - 1] == p;
    }
  }
}

=== FILE: percent.dfy ===
/** Percent-encoding of text, as Python's `urllib.parse.unquote` and `quote`
    treat it for one character per escape. */
module Percent {

  /** The digits `unquote` accepts in an escape, in either case. */
  predicate IsHexDigit(c: char) {
    ('0' <= c <= '9') || ('a' <= c <= 'f') || ('A' <= c <= 'F')
  }

  function HexValue(c: char): (v: nat)
    requires IsHexDigit(c)
    ensures v < 16
  {
    if '0' <= c <= '9' then c as int - '0' as int
    else if 'a' <= c <= 'f' then c as int - 'a' as int + 10
    else c as int - 'A' as int + 10
  }

  /** The upper-case digit `quote` writes for `v`. */
  function HexDigit(v: nat): (c: char)
    requires v < 16
    ensures IsHexDigit(c) && HexValue(c) == v
  {
    if v < 10 then ('0' as int + v) as char else ('A' as int + v - 10) as char
  }

  /** `s` starts with a well-formed escape `%XX`. */
  predicate StartsWithEscape(s: string) {
    |s| >= 3 && s[0] == '%' && IsHexDigit(s[1]) && IsHexDigit(s[2])
  }

  /** Python's `unquote`: every well-formed `%XX` becomes the character with
      code `XX`; a `%` that does not start a well-formed escape, and every other
      character, is copied unchanged. Decoding never fails. */
  function Unquote(s: string): (r: string)
    ensures |r| <= |s|
    ensures |s| > 0 ==> |r| > 0
    ensures '%' !in s ==> r == s
    decreases |s|
  {
    if s == [] then []
    else if StartsWithEscape(s) then
      [(HexValue(s[1]) * 16 + HexValue(s[2])) as char] + Unquote(s[3..])
    else
      [s[0]] + Unquote(s[1..])
  }

  /** A `%` that does not start a well-formed escape is copied as it is: text
      whose every `%` is malformed decodes to itself. */
  lemma {:induction false} UnquoteMalformed(s: string)
    requires forall k :: 0 <= k < |s| && s[k] == '%' ==> !StartsWithEscape(s[k..])
    ensures Unquote(s) == s
    decreases |s|
  {
    if s != [] {
      assert !StartsWithEscape(s) by { assert s[0..] == s; }
      forall k | 0 <= k < |s| - 1 && s[1..][k] == '%' ensures !StartsWithEscape(s[1..][k..]) {
        assert s[1..][k..] == s[k + 1..];
      }
      UnquoteMalformed(s[1..]);
      assert [s[0]] + s[1..] == s;
    }
  }

  /** The first well-formed escape after escape-free text decodes to the
      character whose code its two digits spell, in either case. */
  lemma UnquoteDecodesEscape(a: string, h1: char, h2: char, b: string)
    requires '%' !in a && IsHexDigit(h1) && IsHexDigit(h2)
    ensures Unquote(a + ['%', h1, h2] + b) == a + [(HexValue(h1) * 16 + HexValue(h2)) as char] + Unquote(b)
  {
    var rest := ['%', h1, h2] + b;
    assert a + ['%', h1, h2] + b == a + rest;
    UnquoteAfterPlain(a, rest);
    UnquoteEscapeHead(h1, h2, b);
  }

  /** Escape-free text decodes to itself in front of whatever follows. */
  lemma {:induction false} UnquoteAfterPlain(a: string, rest: string)
    requires '%' !in a
    ensures Unquote(a + rest) == a + Unquote(rest)
    decreases |a|
  {
    if a == [] {
      assert a + rest == rest;
    } else {
      var x, tail := a[0], a[1..];
      assert a == [x] + tail;
      assert x != '%' && '%' !in tail;
      Regroup(x, tail, rest, a);
      UnquotePlainHead(x, tail + rest);
      UnquoteAfterPlain(tail, rest);
      Regroup(x, tail, Unquote(rest), a);
    }
  }

  /** Regrouping a concatenation, kept apart from any decoding in scope. */
  lemma Regroup<T>(x: T, tail: seq<T>, u: seq<T>, a: seq<T>)
    requires a == [x] + tail
    ensures [x] + (tail + u) == a + u
  {
  }

  /** A well-formed escape at the front decodes to one character. */
  lemma UnquoteEscapeHead(h1: char, h2: char, b: string)
    requires IsHexDigit(h1) && IsHexDigit(h2)
    ensures Unquote(['%', h1, h2] + b) == [(HexValue(h1) * 16 + HexValue(h2)) as char] + Unquote(b)
  {
    var s := ['%', h1, h2] + b;
    assert s[1] == h1 && s[2] == h2 && s[3..] == b;
  }

  /** A character other than `%` at the front is copied. */
  lemma UnquotePlainHead(x: char, t: string)
    requires x != '%'
    ensures Unquote([x] + t) == [x] + Unquote(t)
  {
    assert ([x] + t)[1..] == t;
  }

  /** A character that is neither `%` nor a hex digit is never consumed by an
      escape, so it survives decoding. */
  lemma {:induction false} UnquoteKeeps(s: string, c: char)
    requires c in s && c != '%' && !IsHexDigit(c)
    ensures c in Unquote(s)
    decreases |s|
  {
    if s[0] != c {
      if StartsWithEscape(s) {
        assert c in s[3..] by {
          var k :| 0 <= k < |s| && s[k] == c;
          assert k >= 3;
          assert s[3..][k - 3] == c;
        }
        UnquoteKeeps(s[3..], c);
      } else {
        assert c in s[1..] by {
          var k :| 0 <= k < |s| && s[k] == c;
          assert s[1..][k - 1] == c;
        }
        UnquoteKeeps(s[1..], c);
      }
    }
  }

  /** `s` holds the escape `%3F` (or `%3f`) of `?` somewhere. */
  predicate HasEscapedQuestion(s: string)
    decreases |s|
  {
    |s| >= 3 && ((s[0] == '%' && s[1] == '3' && (s[2] == 'F' || s[2] == 'f')) || HasEscapedQuestion(s[1..]))
  }

  /** A `?` in the decoded text is either a literal `?` or a decoded `%3F`. */
  lemma {:induction false} UnquoteQuestionOrigin(s: string)
    requires '?' in Unquote(s)
    ensures '?' in s || HasEscapedQuestion(s)
    decreases |s|
  {
    if StartsWithEscape(s) {
      var c := (HexValue(s[1]) * 16 + HexValue(s[2])) as char;
      if c == '?' {
        assert HexValue(s[1]) == 3 && HexValue(s[2]) == 15;
      } else {
        UnquoteQuestionOrigin(s[3..]);
        if '?' in s[3..] {
          var k :| 0 <= k < |s[3..]| && s[3..][k] == '?';
          assert s[k + 3] == '?';
        } else {
          EscapedQuestionLater(s, 3);
        }
      }
    } else if s[0] != '?' {
      UnquoteQuestionOrigin(s[1..]);
      if '?' in s[1..] {
        var k :| 0 <= k < |s[1..]| && s[1..][k] == '?';
        assert s[k + 1] == '?';
      } else {
        EscapedQuestionLater(s, 1);
      }
    }
  }

  /** An escaped `?` in a suffix is one in the whole text. */
  lemma {:induction false} EscapedQuestionLater(s: string, k: nat)
    requires k <= |s| && HasEscapedQuestion(s[k..])
    ensures HasEscapedQuestion(s)
    decreases k
  {
    if k > 0 {
      assert s[k - 1..][1..] == s[k..];
      EscapedQuestionLater(s, k - 1);
    }
  }

  /** An escaped `?` anywhere decodes to `?`. */
  lemma {:induction false} EscapedQuestionDecodes(s: string)
    requires HasEscapedQuestion(s)
    ensures '?' in Unquote(s)
    decreases |s|
  {
    if s[0] == '%' && s[1] == '3' && (s[2] == 'F' || s[2] == 'f') {
      assert StartsWithEscape(s);
      assert Unquote(s)[0] == '?';
    } else if StartsWithEscape(s) {
      // The escape at the front hides nothing: the `%3F` that matters starts later.
      EscapeShift(s);
      EscapedQuestionDecodes(s[3..]);
      assert Unquote(s)[1..] == Unquote(s[3..]);
    } else {
      EscapedQuestionDecodes(s[1..]);
      assert Unquote(s)[1..] == Unquote(s[1..]);
    }
  }

  /** An escaped `?` after a leading escape `%XY` (with `XY` not `3F`) starts at
      position 3 or later, since neither `X` nor `Y` is `%`. */
  lemma EscapeShift(s: string)
    requires StartsWithEscape(s) && HasEscapedQuestion(s)
    requires !(s[1] == '3' && (s[2] == 'F' || s[2] == 'f'))
    ensures HasEscapedQuestion(s[3..])
  {
    var s1, s2 := s[1..], s[2..];
    assert HasEscapedQuestion(s1);
    assert s1[1..] == s2 && s2[1..] == s[3..];
    assert s1[0] != '%' && s2[0] != '%';
    assert HasEscapedQuestion(s2);
  }

  /** Python's `quote(s)` restricted to ASCII text: letters, digits, `_.-~`
      and `/` stay, every other character becomes `%XX` in upper case. */
  predicate IsUnreserved(c: char) {
    ('a' <= c <= 'z') || ('A' <= c <= 'Z') || ('0' <= c <= '9')
    || c == '_' || c == '.' || c == '-' || c == '~' || c == '/'
  }

  predicate IsAscii(s: string) {
    forall k :: 0 <= k < |s| ==> s[k] as int < 128
  }

  function Quote(s: string): (r: string)
    requires IsAscii(s)
    ensures |s| <= |r| <= 3 * |s|
    decreases |s|
  {
    if s == [] then []
    else
      var c := s[0];
      var rest := Quote(s[1..]);
      if IsUnreserved(c) then [c] + rest
      else ['%', HexDigit(c as int / 16), HexDigit(c as int % 16)] + rest
  }

  /** Decoding inverts `quote`: every escape `quote` writes is well-formed and
      every character it leaves alone is not a `%`. */
  lemma {:induction false} UnquoteQuote(s: string)
    requires IsAscii(s)
    ensures Unquote(Quote(s)) == s
    decreases |s|
  {
    if s != [] {
      var c := s[0];
      UnquoteQuote(s[1..]);
      var q := Quote(s);
      if IsUnreserved(c) {
        assert q == [c] + Quote(s[1..]);
        assert !StartsWithEscape(q);
        assert q[1..] == Quote(s[1..]);
      } else {
        assert StartsWithEscape(q);
        assert q[3..] == Quote(s[1..]);
        assert HexValue(q[1]) * 16 + HexValue(q[2]) == c as int;
      }
      assert s == [c] + s[1..];
    }
  }
}

=== FILE: query.dfy ===
/** The query-string half of the URL view: Python's `parse_qsl` with its
    defaults, the `dict(...)` built from it, and the rendering `convertText`
    produces from the two. */
module Query {
  import opened Wrappers
  import opened Text
  import Percent
  import Collections

  type Pair = (string, string)

  /** How `parse_qsl` decodes a name or value: `+` is a space, then `unquote`. */
  function DecodeComponent(s: string): (r: string)
    ensures |s| > 0 ==> |r| > 0
    ensures '+' !in s && '%' !in s ==> r == s
    ensures '%' !in s ==> |r| == |s| && forall k :: 0 <= k < |s| ==> r[k] == (if s[k] == '+' then ' ' else s[k])
    ensures '+' !in s ==> r == Percent.Unquote(s)
  {
    var spaced := Replace(s, "+", " ");
    assert '+' !in s ==> spaced == s by {
      if '+' !in s {
        NoCharNoInfix(s, '+');
        ReplaceAbsent(s, "+", " ");
      }
    }
    ReplaceChar(s, '+', ' ');
    assert '%' !in s ==> '%' !in spaced by {
      if '%' !in s {
        assert forall k :: 0 <= k < |spaced| ==> spaced[k] != '%';
      }
    }
    Percent.Unquote(spaced)
  }

  /** A string without `c` does not contain the one-character string `[c]`. */
  lemma {:induction false} NoCharNoInfix(s: string, c: char)
    requires c !in s
    ensures !HasInfix(s, [c])
    decreases |s|
  {
    if s != [] {
      assert s[..1] == [s[0]];
      NoCharNoInfix(s[1..], c);
    }
  }

  /** One `&`-separated field under `keep_blank_values=False`: a field
      without `=`, or whose raw value after the first `=` is empty, is dropped. */
  function ParseField(field: string): (r: Option<Pair>)
    ensures '=' !in field ==> r == None
    ensures '=' in field ==> (r.Some? <==> field[IndexOf(field, '=') + 1..] != "")
    ensures r.Some? ==> r.value.1 != ""
    ensures r.Some? ==>
              && '=' in field
              && var i := IndexOf(field, '=');
                 r.value == (DecodeComponent(field[..i]), DecodeComponent(field[i + 1..]))
  {
    if field == "" then None
    else if '=' !in field then None
    else
      var i := IndexOf(field, '=');
      var name, value := field[..i], field[i + 1..];
      if value == "" then None
      else Some((DecodeComponent(name), DecodeComponent(value)))
  }

  function ParseFields(fields: seq<string>): (pairs: seq<Pair>)
    ensures |pairs| <= |fields|
    ensures forall i :: 0 <= i < |pairs| ==> pairs[i].1 != ""
    decreases |fields|
  {
    if fields == [] then []
    else Keep(ParseField(fields[0]), ParseFields(fields[1..]))
  }

  /** The pair of one field, if kept, in front of the pairs after it. */
  function Keep(field: Option<Pair>, rest: seq<Pair>): seq<Pair> {
    match field
    case Some(p) => [p] + rest
    case None => rest
  }

  /** Putting a field's pair in front commutes with appending later pairs. */
  lemma KeepAppend(field: Option<Pair>, x: seq<Pair>, y: seq<Pair>)
    ensures Keep(field, x + y) == Keep(field, x) + y
  {
    if field.Some? {
      assert [field.value] + (x + y) == ([field.value] + x) + y;
    }
  }

  /** The fields are parsed one by one: parsing a concatenation of field lists
      concatenates the results. */
  lemma {:induction false} ParseFieldsAppend(a: seq<string>, b: seq<string>)
    ensures ParseFields(a + b) == ParseFields(a) + ParseFields(b)
    decreases |a|
  {
    if a == [] {
      assert a + b == b;
    } else {
      assert (a + b)[0] == a[0] && (a + b)[1..] == a[1..] + b;
      var head := ParseField(a[0]);
      var x, y := ParseFields(a[1..]), ParseFields(b);
      ParseFieldsAppend(a[1..], b);
      assert ParseFields(a + b) == Keep(head, x + y);
      KeepAppend(head, x, y);
    }
  }

  /** A single field contributes its pair when it is kept and nothing when it
      is dropped. */
  lemma ParseFieldsOne(field: string)
    ensures ParseFields([field]) == if ParseField(field).Some? then [ParseField(field).value] else []
  {
    assert [field][1..] == [];
  }

  /** Python's `parse_qsl(qs)`: the `(name, value)` pairs of the `&`-separated
      fields, in order; no kept pair has an empty value. */
  function ParseQsl(qs: string): (pairs: seq<Pair>)
    ensures forall i :: 0 <= i < |pairs| ==> pairs[i].1 != ""
  {
    if qs == "" then [] else ParseFields(Split(qs, '&'))
  }

  /** The query text `urlencode` would write for plain pairs. */
  function EncodeQuery(pairs: seq<Pair>): string {
    Join(seq(|pairs|, i requires 0 <= i < |pairs| => pairs[i].0 + "=" + pairs[i].1), "&")
  }

  /** Names and values that need no escaping and survive `parse_qsl` unchanged. */
  predicate PlainPair(p: Pair) {
    && '&' !in p.0 && '=' !in p.0 && '%' !in p.0 && '+' !in p.0
    && p.1 != "" && '&' !in p.1 && '%' !in p.1 && '+' !in p.1
  }

  /** `parse_qsl` inverts the encoding of plain pairs. */
  lemma ParseQslEncode(pairs: seq<Pair>)
    requires forall i :: 0 <= i < |pairs| ==> PlainPair(pairs[i])
    ensures ParseQsl(EncodeQuery(pairs)) == pairs
  {
    if pairs != [] {
      var fields := seq(|pairs|, i requires 0 <= i < |pairs| => pairs[i].0 + "=" + pairs[i].1);
      forall i | 0 <= i < |fields| ensures '&' !in fields[i] {
        assert fields[i] == pairs[i].0 + "=" + pairs[i].1;
      }
      SplitJoin(fields, '&');
      assert EncodeQuery(pairs) != "" by {
        assert Split(EncodeQuery(pairs), '&') == fields;
      }
      ParseFieldsPlain(pairs, fields);
    }
  }

  lemma {:induction false} ParseFieldsPlain(pairs: seq<Pair>, fields: seq<string>)
    requires |fields| == |pairs|
    requires forall i :: 0 <= i < |pairs| ==> PlainPair(pairs[i]) && fields[i] == pairs[i].0 + "=" + pairs[i].1
    ensures ParseFields(fields) == pairs
    decreases |pairs|
  {
    if pairs != [] {
      var (k, v) := pairs[0];
      var f := fields[0];
      assert f == k + "=" + v;
      assert IndexOf(f, '=') == |k| by {
        assert f[|k|] == '=';
        assert f[..|k|] == k;
      }
      assert f[..|k|] == k && f[|k| + 1..] == v;
      ParseFieldsPlain(pairs[1..], fields[1..]);
    }
  }

  /** One line `    name = value` per dictionary item, joined by newlines. */
  function RenderPairs(items: seq<Pair>): string {
    Join(RenderedLines(items), "\n")
  }

  function RenderedLines(items: seq<Pair>): seq<string> {
    seq(|items|, i requires 0 <= i < |items| => "    " + items[i].0 + " = " + items[i].1)
  }

  /** Each item reads back as its own line when names and values hold no newline. */
  lemma RenderedLinesSplit(items: seq<Pair>)
    requires |items| >= 1
    requires forall i :: 0 <= i < |items| ==> '\n' !in items[i].0 && '\n' !in items[i].1
    ensures Split(RenderPairs(items), '\n') == RenderedLines(items)
  {
    var lines := RenderedLines(items);
    forall i | 0 <= i < |lines| ensures '\n' !in lines[i] {
      assert lines[i] == "    " + items[i].0 + " = " + items[i].1;
    }
    SplitJoin(lines, '\n');
  }

  /** `convertText(raw, "URL")` after `unquote`: the text before the first `?`,
      then the dictionary of the text after the last `?`, stripped. */
  function UrlRender(text: string): string {
    UrlView(UrlPrefix(text), UrlQuery(text))
  }

  /** The text before the first `?`. */
  function UrlPrefix(text: string): string {
    Split(text, '?')[0]
  }

  /** The text after the last `?`. */
  function UrlQuery(text: string): string {
    var parts := Split(text, '?');
    parts[|parts| - 1]
  }

  /** `"\n".join((prefix, query)).strip()` for the pairs of query text `q`. */
  function UrlView(prefix: string, q: string): string {
    Strip(prefix + ("\n" + QueryView(q)))
  }

  /** The part of the URL view that holds the pairs of query text `q`. */
  function QueryView(q: string): string {
    RenderPairs(Collections.DictItems(ParseQsl(q)))
  }

  /** Everything between the first and the last `?` is dropped. */
  lemma UrlDropsMiddleSegments(a: string, m: string, b: string)
    requires '?' !in a && '?' !in b
    ensures UrlRender(a + "?" + m + "?" + b) == UrlRender(a + "?" + b)
    ensures UrlRender(a + "?" + b) == UrlView(a, b)
  {
    UrlOfTwoMarks(a, m, b);
    UrlOfOneMark(a, b);
  }

  /** With two or more `?`, the view joins the text before the first and the
      text after the last. */
  lemma {:induction false} UrlOfTwoMarks(a: string, m: string, b: string)
    requires '?' !in a && '?' !in b
    ensures UrlRender(a + "?" + m + "?" + b) == UrlView(a, b)
  {
    SplitOuterPieces(a, m, b, '?');
    var long := a + "?" + m + "?" + b;
    assert UrlPrefix(long) == a && UrlQuery(long) == b;
  }

  /** With exactly one `?`, the view joins the two sides of it. */
  lemma UrlOfOneMark(a: string, b: string)
    requires '?' !in a && '?' !in b
    ensures UrlRender(a + "?" + b) == UrlView(a, b)
  {
    SplitAtFirst(a, '?', b);
    SplitWithoutSeparator(b, '?');
    assert Split(a + "?" + b, '?') == [a, b];
  }

  /** Without a `?` the whole text is both the prefix and the query. */
  lemma UrlWithoutQuestionMark(t: string)
    requires '?' !in t
    ensures UrlRender(t) == UrlView(t, t)
  {
    SplitWithoutSeparator(t, '?');
  }

  /** A prefix that starts and ends with visible characters opens the view
      unchanged, whatever the query renders to. */
  lemma UrlViewStartsWithPrefix(prefix: string, q: string)
    requires prefix != "" && !IsSpace(prefix[0]) && !IsSpace(prefix[|prefix| - 1])
    ensures |UrlView(prefix, q)| >= |prefix| && UrlView(prefix, q)[..|prefix|] == prefix
  {
    StripKeepsVisiblePrefix(prefix, "\n" + QueryView(q));
  }

  /** No `c` is introduced by encoding when names and values hold none. */
  lemma EncodeQueryAvoids(pairs: seq<Pair>, c: char)
    requires c != '&' && c != '='
    requires forall i :: 0 <= i < |pairs| ==> c !in pairs[i].0 && c !in pairs[i].1
    ensures c !in EncodeQuery(pairs)
  {
    var fields := seq(|pairs|, i requires 0 <= i < |pairs| => pairs[i].0 + "=" + pairs[i].1);
    forall i | 0 <= i < |fields| ensures c !in fields[i] {
      assert fields[i] == pairs[i].0 + "=" + pairs[i].1;
    }
    JoinAvoids(fields, "&", c);
  }

  /** The rendering ends with the last character of the last value. */
  lemma RenderPairsEnd(items: seq<Pair>)
    requires |items| >= 1 && items[|items| - 1].1 != ""
    ensures var r := RenderPairs(items); var v := items[|items| - 1].1;
            r != "" && r[|r| - 1] == v[|v| - 1]
  {
    var lines := RenderedLines(items);
    var last := lines[|lines| - 1];
    assert last == "    " + items[|items| - 1].0 + " = " + items[|items| - 1].1;
    if |lines| >= 2 {
      JoinEndsWithLast(lines, "\n");
    }
  }

  /** The query of `a?q` is `q` when neither part holds a `?`. */
  lemma UrlOfEncodedQuery(a: string, pairs: seq<Pair>)
    requires '?' !in a
    requires forall i :: 0 <= i < |pairs| ==> '?' !in pairs[i].0 && '?' !in pairs[i].1
    ensures UrlRender(a + "?" + EncodeQuery(pairs)) == UrlView(a, EncodeQuery(pairs))
  {
    EncodeQueryAvoids(pairs, '?');
    UrlDropsMiddleSegments(a, "", EncodeQuery(pairs));
  }

  /** Plain pairs with distinct names render in their encoded order. */
  lemma QueryViewOfEncoded(pairs: seq<Pair>)
    requires forall i :: 0 <= i < |pairs| ==> PlainPair(pairs[i])
    requires Collections.NoDup(Collections.Keys(pairs))
    ensures QueryView(EncodeQuery(pairs)) == RenderPairs(pairs)
  {
    ParseQslEncode(pairs);
    Collections.DictItemsOfDistinct(pairs);
  }

  /** The view of a URL whose query was encoded from plain pairs with distinct
      names: the prefix, then one line per pair in the encoded order. */
  lemma UrlRenderOfEncodedQuery(a: string, pairs: seq<Pair>)
    requires a != "" && '?' !in a && !IsSpace(a[0])
    requires |pairs| >= 1
    requires forall i :: 0 <= i < |pairs| ==> PlainPair(pairs[i]) && '?' !in pairs[i].0 && '?' !in pairs[i].1
    requires Collections.NoDup(Collections.Keys(pairs))
    requires var v := pairs[|pairs| - 1].1; v != "" && !IsSpace(v[|v| - 1])
    ensures UrlRender(a + "?" + EncodeQuery(pairs)) == a + "\n" + RenderPairs(pairs)
  {
    UrlOfEncodedQuery(a, pairs);
    QueryViewOfEncoded(pairs);
    RenderPairsEnd(pairs);
    StripAroundNewline(a, RenderPairs(pairs));
  }
}

=== FILE: servers.dfy ===
/** The recent-server list: the address typed into the server box, the list
    kept in `servers.txt`, and how connecting updates both. */
module Servers {
  import opened Text
  import Collections

  /** The port ZooKeeper listens on unless the address names another. */
  const DEFAULT_PORT: string := ":2181"

  /** The list used when the file holds no address. */
  const DEFAULT_SERVERS: seq<string> := ["127.0.0.1:2181"]

  /** An address without `:` gets the default port; any `:` counts as a port. */
  function WithDefaultPort(server: string): (r: string)
    ensures ':' in r
    ensures ':' in server ==> r == server
    ensures ':' !in server ==> r == server + DEFAULT_PORT
    ensures |r| >= |server| && r[..|server|] == server
  {
    if ':' in server then server else server + DEFAULT_PORT
  }

  /** Defaulting the port twice is defaulting it once. */
  lemma WithDefaultPortIdempotent(server: string)
    ensures WithDefaultPort(WithDefaultPort(server)) == WithDefaultPort(server)
  {
  }

  /** `list(dict.fromkeys([server] + servers))`: the chosen address first, then
      the previous list without it and without repeats. */
  function Remember(server: string, servers: seq<string>): (r: seq<string>)
    ensures r != [] && r[0] == server
    ensures Collections.NoDup(r)
    ensures forall x :: x in r <==> x == server || x in servers
  {
    var r := Collections.Dedup([server] + servers);
    Collections.DedupHead([server] + servers);
    assert forall x :: x in [server] + servers <==> x == server || x in servers;
    r
  }

  /** Apart from the chosen address, the entries keep the order in which they
      first occur in the previous list. */
  lemma RememberKeepsOrder(server: string, servers: seq<string>)
    ensures var r := Remember(server, servers);
            forall i, j :: 1 <= i < j < |r| ==>
              r[i] in servers && r[j] in servers &&
              Collections.FirstIndex(servers, r[i]) < Collections.FirstIndex(servers, r[j])
  {
    var xs := [server] + servers;
    var r := Remember(server, servers);
    Collections.DedupFirstSeenOrder(xs);
    forall i | 1 <= i < |r| ensures r[i] in servers && Collections.FirstIndex(xs, r[i]) == 1 + Collections.FirstIndex(servers, r[i]) {
      assert r[i] != r[0];
      FirstIndexAfterHead(server, servers, r[i]);
    }
  }

  /** Positions in `[x] + xs` of anything other than `x` are one past those in `xs`. */
  lemma FirstIndexAfterHead(x: string, xs: seq<string>, y: string)
    requires y != x && y in xs
    ensures Collections.FirstIndex([x] + xs, y) == 1 + Collections.FirstIndex(xs, y)
  {
    var k := Collections.FirstIndex(xs, y);
    var ys := [x] + xs;
    assert ys[1 + k] == y;
    assert ys[..1 + k] == [x] + xs[..k];
  }

  /** Connecting to the address at the head of the list leaves the list as it is. */
  lemma RememberIdempotent(server: string, servers: seq<string>)
    ensures Remember(server, Remember(server, servers)) == Remember(server, servers)
  {
    var r := Remember(server, servers);
    assert [server] + r == [server, server] + r[1..];
    Collections.DedupRepeatedHead(server, r[1..]);
    assert [server] + r[1..] == r;
    Collections.DedupOfDistinct(r);
  }

  /** An entry as the file loader keeps it: non-blank, stripped, one line. */
  predicate Storable(entry: string) {
    entry != "" && Strip(entry) == entry && NoLineBreak(entry)
  }

  /** A line the loader drops: nothing is left once it is stripped. */
  predicate Blank(line: string) {
    Strip(line) == ""
  }

  /** The stripped non-blank lines, in order. */
  function Entries(lines: seq<string>): (r: seq<string>)
    ensures |r| <= |lines|
    ensures forall i :: 0 <= i < |r| ==> r[i] != "" && Strip(r[i]) == r[i]
    decreases |lines|
  {
    if lines == [] then []
    else
      var e := Strip(lines[0]);
      var rest := Entries(lines[1..]);
      if e == "" then rest
      else
        StripIdempotent(lines[0]);
        [e] + rest
  }

  /** There are no entries exactly when every line is blank. */
  lemma {:induction false} EntriesNoneIffBlank(lines: seq<string>)
    ensures Entries(lines) == [] <==> forall i :: 0 <= i < |lines| ==> Blank(lines[i])
    decreases |lines|
  {
    if lines != [] {
      var tail := lines[1..];
      EntriesNoneIffBlank(tail);
      if Blank(lines[0]) {
        assert Entries(lines) == Entries(tail);
        assert (forall i :: 0 <= i < |lines| ==> Blank(lines[i])) <==> (forall i :: 0 <= i < |tail| ==> Blank(tail[i])) by {
          forall i | 1 <= i < |lines| ensures lines[i] == tail[i - 1] { }
        }
      } else {
        assert Entries(lines) == [Strip(lines[0])] + Entries(tail);
      }
    }
  }

  /** Which lines the loader keeps. */
  function NonBlank(lines: seq<string>): (keep: seq<bool>)
    ensures |keep| == |lines| && forall i :: 0 <= i < |lines| ==> keep[i] == !Blank(lines[i])
  {
    seq(|lines|, i requires 0 <= i < |lines| => !Blank(lines[i]))
  }

  /** `[x.strip() for x in lines if x.strip()]`: the entries are the stripped
      lines at the positions of the non-blank lines, in order. */
  lemma {:induction false} EntriesAreNonBlankLines(lines: seq<string>)
    ensures var r, idx := Entries(lines), Collections.Positions(NonBlank(lines));
            && |idx| == |r|
            && (forall k :: 0 <= k < |idx| ==> idx[k] < |lines| && r[k] == Strip(lines[idx[k]]))
    decreases |lines|
  {
    if lines != [] {
      var tail := lines[1..];
      EntriesAreNonBlankLines(tail);
      var keep := NonBlank(lines);
      assert keep[1..] == NonBlank(tail);
      var later := Collections.Positions(NonBlank(tail));
      var rest := Entries(tail);
      var shifted := Collections.Shift(later);
      assert Collections.Positions(keep) == if keep[0] then [0] + shifted else shifted;
      assert forall k :: 0 <= k < |shifted| ==> shifted[k] < |lines| && rest[k] == Strip(lines[shifted[k]]) by {
        forall k | 0 <= k < |shifted| ensures shifted[k] < |lines| && rest[k] == Strip(lines[shifted[k]]) {
          assert tail[later[k]] == lines[later[k] + 1];
        }
      }
      if keep[0] {
        ConsAtKept(Strip(lines[0]), rest, shifted, lines);
      }
    }
  }

  lemma ConsAtKept(e: string, rest: seq<string>, shifted: seq<nat>, lines: seq<string>)
    requires lines != [] && e == Strip(lines[0]) && |shifted| == |rest|
    requires forall k :: 0 <= k < |shifted| ==> shifted[k] < |lines| && rest[k] == Strip(lines[shifted[k]])
    ensures var r, idx := [e] + rest, [0] + shifted;
            forall k :: 0 <= k < |idx| ==> idx[k] < |lines| && r[k] == Strip(lines[idx[k]])
  {
    var vals := seq(|lines|, i requires 0 <= i < |lines| => Strip(lines[i]));
    Collections.PrependAt(e, rest, shifted, vals);
  }

  /** The startup list: the stripped non-blank lines of the file, or the
      default address when every line is blank. */
  function LoadServers(text: string): (r: seq<string>)
    ensures r != []
    ensures forall i :: 0 <= i < |r| ==> r[i] != "" && Strip(r[i]) == r[i]
    ensures (forall i :: 0 <= i < |SplitLines(text)| ==> Blank(SplitLines(text)[i])) ==> r == DEFAULT_SERVERS
    ensures !(forall i :: 0 <= i < |SplitLines(text)| ==> Blank(SplitLines(text)[i])) ==> r == Entries(SplitLines(text))
  {
    var entries := Entries(SplitLines(text));
    EntriesNoneIffBlank(SplitLines(text));
    if entries == [] then
      StripVisible(DEFAULT_SERVERS[0]);
      DEFAULT_SERVERS
    else entries
  }

  /** What connecting writes back to the file. */
  function SaveServers(servers: seq<string>): (text: string) {
    Join(servers, "\n")
  }

  /** A saved list of storable entries loads back unchanged. */
  lemma LoadSave(servers: seq<string>)
    requires servers != []
    requires forall i :: 0 <= i < |servers| ==> Storable(servers[i])
    ensures LoadServers(SaveServers(servers)) == servers
  {
    SplitLinesJoin(servers);
    EntriesOfStorable(servers);
  }

  /** Lines that are already storable entries are kept as they are. */
  lemma {:induction false} EntriesOfStorable(lines: seq<string>)
    requires forall i :: 0 <= i < |lines| ==> Storable(lines[i])
    ensures Entries(lines) == lines
    decreases |lines|
  {
    if lines != [] {
      EntriesOfStorable(lines[1..]);
      assert [lines[0]] + lines[1..] == lines;
    }
  }

  /** The outcome of `doConnect` before the tree refresh: the address used,
      the new list, and the text written to the file. */
  datatype Connection = Connection(server: string, servers: seq<string>, saved: string)

  function Connect(typed: string, servers: seq<string>): (c: Connection)
    ensures ':' in c.server && c.servers != [] && c.servers[0] == c.server
    ensures Collections.NoDup(c.servers)
    ensures forall x :: x in c.servers <==> x == c.server || x in servers
    ensures c.server == WithDefaultPort(typed)
    ensures c.servers == Remember(c.server, servers) && c.saved == SaveServers(c.servers)
  {
    var server := WithDefaultPort(typed);
    var list := Remember(server, servers);
    Connection(server, list, SaveServers(list))
  }

  /** When the typed address and the previous list are storable, the next
      start-up reads back exactly the list connecting produced. */
  lemma ConnectThenRestart(typed: string, servers: seq<string>)
    requires Storable(WithDefaultPort(typed))
    requires forall i :: 0 <= i < |servers| ==> Storable(servers[i])
    ensures LoadServers(Connect(typed, servers).saved) == Connect(typed, servers).servers
  {
    var c := Connect(typed, servers);
    forall i | 0 <= i < |c.servers| ensures Storable(c.servers[i]) {
      assert c.servers[i] in c.servers;
    }
    LoadSave(c.servers);
  }
}

=== FILE: text.dfy ===
/** The Python `str` operations the explorer relies on, written out over `seq<char>`. */
module Text {

  /** Python's `str.isspace` for one character. */
  predicate IsSpace(c: char) {
    || ('\t' <= c <= '\r')
    || ('\U{1C}' <= c <= ' ')
    || c == '\U{85}' || c == '\U{A0}' || c == '\U{1680}'
    || ('\U{2000}' <= c <= '\U{200A}')
    || c == '\U{2028}' || c == '\U{2029}' || c == '\U{202F}' || c == '\U{205F}' || c == '\U{3000}'
  }

  predicate AllSpace(s: string) {
    forall k :: 0 <= k < |s| ==> IsSpace(s[k])
  }

  /** Number of whitespace characters at the start of `s`. */
  function LeadingSpaces(s: string): (n: nat)
    ensures n <= |s|
    ensures AllSpace(s[..n])
    ensures n < |s| ==> !IsSpace(s[n])
    decreases |s|
  {
    if s != [] && IsSpace(s[0]) then 1 + LeadingSpaces(s[1..]) else 0
  }

  /** Number of whitespace characters at the end of `s`. */
  function TrailingSpaces(s: string): (n: nat)
    ensures n <= |s|
    ensures AllSpace(s[|s| - n..])
    ensures n < |s| ==> !IsSpace(s[|s| - n - 1])
    decreases |s|
  {
    if s != [] && IsSpace(s[|s| - 1]) then
      var k := TrailingSpaces(s[..|s| - 1]);
      TrailingStep(s, k);
      1 + k
    else 0
  }

  /** One more trailing space extends the whitespace run at the end. */
  lemma TrailingStep(s: string, k: nat)
    requires s != [] && IsSpace(s[|s| - 1]) && k <= |s| - 1
    requires AllSpace(s[..|s| - 1][|s| - 1 - k..])
    requires k < |s| - 1 ==> !IsSpace(s[..|s| - 1][|s| - 1 - k - 1])
    ensures AllSpace(s[|s| - (k + 1)..])
    ensures k + 1 < |s| ==> !IsSpace(s[|s| - (k + 1) - 1])
  {
    var init := s[..|s| - 1];
    var tail := s[|s| - (k + 1)..];
    forall j | 0 <= j < k + 1 ensures IsSpace(tail[j]) {
      if j < k {
        assert tail[j] == init[|s| - 1 - k..][j];
      }
    }
    if k + 1 < |s| {
      assert s[|s| - (k + 1) - 1] == init[|s| - 1 - k - 1];
    }
  }

  /** Python's `str.strip()`: the infix of `s` left after removing whitespace at both ends. */
  function Strip(s: string): (r: string)
    ensures AllSpace(s) <==> r == ""
    ensures r != "" ==> !IsSpace(r[0]) && !IsSpace(r[|r| - 1])
  {
    var i := LeadingSpaces(s);
    if i == |s| then
      assert s[..i] == s;
      ""
    else
      var j := |s| - TrailingSpaces(s);
      assert !AllSpace(s) by { assert !IsSpace(s[i]); }
      s[i..j]
  }

  /** The strip is the infix left between a whitespace run at the start and
      one at the end. */
  lemma StripInfix(s: string)
    ensures exists i, j :: 0 <= i <= j <= |s| && Strip(s) == s[i..j] && AllSpace(s[..i]) && AllSpace(s[j..])
  {
    var i := LeadingSpaces(s);
    if i == |s| {
      assert s[..i] == s;
      assert s[i..i] == "" && AllSpace(s[i..]);
    } else {
      var j := |s| - TrailingSpaces(s);
      assert Strip(s) == s[i..j];
    }
  }

  /** Stripping keeps a leading part that starts and ends with visible characters. */
  lemma StripKeepsVisiblePrefix(a: string, rest: string)
    requires a != "" && !IsSpace(a[0]) && !IsSpace(a[|a| - 1])
    ensures |Strip(a + rest)| >= |a| && Strip(a + rest)[..|a|] == a
  {
    var x := a + rest;
    var r := Strip(x);
    StripInfix(x);
    var i, j :| 0 <= i <= j <= |x| && r == x[i..j] && AllSpace(x[..i]) && AllSpace(x[j..]);
    assert x[..|a|] == a;
  }

  /** A string with visible characters at both ends is its own strip. */
  lemma StripVisible(s: string)
    requires s != "" && !IsSpace(s[0]) && !IsSpace(s[|s| - 1])
    ensures Strip(s) == s
  {
    assert LeadingSpaces(s) == 0;
    assert TrailingSpaces(s) == 0;
    assert s[0..|s|] == s;
  }

  /** Two visible-ended texts joined by a newline survive stripping. */
  lemma StripAroundNewline(a: string, b: string)
    requires a != "" && !IsSpace(a[0])
    requires b != "" && !IsSpace(b[|b| - 1])
    ensures Strip(a + ("\n" + b)) == a + "\n" + b
  {
    var whole := a + ("\n" + b);
    assert whole[0] == a[0];
    assert whole[|whole| - 1] == b[|b| - 1];
    StripVisible(whole);
  }

  /** Stripping twice is stripping once. */
  lemma StripIdempotent(s: string)
    ensures Strip(Strip(s)) == Strip(s)
  {
    var r := Strip(s);
    if r != "" {
      assert LeadingSpaces(r) == 0 by { assert !IsSpace(r[0]); }
      assert TrailingSpaces(r) == 0 by { assert !IsSpace(r[|r| - 1]); }
      assert r[0..|r|] == r;
    }
  }

  /** Python's `"".join`-style concatenation of `parts` with `sep` between them. */
  function Join(parts: seq<string>, sep: string): string
    decreases |parts|
  {
    if |parts| == 0 then ""
    else if |parts| == 1 then parts[0]
    else parts[0] + sep + Join(parts[1..], sep)
  }

  /** The joined text ends with the last part. */
  lemma {:induction false} JoinEndsWithLast(parts: seq<string>, sep: string)
    requires |parts| >= 2
    ensures Join(parts, sep) == Join(parts[..|parts| - 1], sep) + sep + parts[|parts| - 1]
    decreases |parts|
  {
    if |parts| > 2 {
      JoinEndsWithLast(parts[1..], sep);
      assert parts[1..][..|parts| - 2] == parts[..|parts| - 1][1..];
    }
  }

  /** A character found in no part and not in the separator is not in the joined text. */
  lemma {:induction false} JoinAvoids(parts: seq<string>, sep: string, c: char)
    requires c !in sep
    requires forall i :: 0 <= i < |parts| ==> c !in parts[i]
    ensures c !in Join(parts, sep)
    decreases |parts|
  {
    if |parts| > 1 {
      JoinAvoids(parts[1..], sep, c);
    }
  }

  /** Python's `s.split(sep)` for a one-character separator: never empty, and the
      pieces are exactly the text between consecutive separators. */
  function Split(s: string, sep: char): (parts: seq<string>)
    ensures |parts| >= 1
    ensures forall i :: 0 <= i < |parts| ==> sep !in parts[i]
    decreases |s|
  {
    if s == [] then [""]
    else
      var rest := Split(s[1..], sep);
      if s[0] == sep then [""] + rest
      else [[s[0]] + rest[0]] + rest[1..]
  }

  /** Joining the pieces with the separator gives back the text. */
  lemma {:induction false} SplitThenJoin(s: string, sep: char)
    ensures Join(Split(s, sep), [sep]) == s
    decreases |s|
  {
    if s != [] {
      SplitThenJoin(s[1..], sep);
      var rest := Split(s[1..], sep);
      if s[0] != sep {
        var parts := [[s[0]] + rest[0]] + rest[1..];
        assert Join(parts, [sep]) == [s[0]] + Join(rest, [sep]) by {
          if |rest| > 1 {
            assert parts[1..] == rest[1..];
          }
        }
      }
      assert s == [s[0]] + s[1..];
    }
  }


  /** A separator-free string splits into itself. */
  lemma {:induction false} SplitWithoutSeparator(s: string, sep: char)
    requires sep !in s
    ensures Split(s, sep) == [s]
    decreases |s|
  {
    if s != [] {
      SplitWithoutSeparator(s[1..], sep);
      assert [s[0]] + s[1..] == s;
    }
  }

  /** The first piece is the text before the first separator. */
  lemma {:induction false} SplitAtFirst(a: string, sep: char, b: string)
    requires sep !in a
    ensures Split(a + [sep] + b, sep) == [a] + Split(b, sep)
    decreases |a|
  {
    if a != [] {
      assert (a + [sep] + b)[1..] == a[1..] + [sep] + b;
      SplitAtFirst(a[1..], sep, b);
      var rest := Split(a[1..] + [sep] + b, sep);
      assert rest[0] == a[1..] && rest[1..] == Split(b, sep);
      assert [a[0]] + a[1..] == a;
    } else {
      assert a + [sep] + b == [sep] + b;
      assert ([sep] + b)[1..] == b;
    }
  }

  /** The last piece is the text after the last separator. */
  lemma {:induction false} SplitLastPiece(x: string, sep: char, b: string)
    requires sep !in b
    ensures |Split(x + [sep] + b, sep)| >= 2
    ensures Split(x + [sep] + b, sep)[|Split(x + [sep] + b, sep)| - 1] == b
    decreases |x|
  {
    if x == [] {
      assert x + [sep] + b == [sep] + b;
      assert ([sep] + b)[1..] == b;
      SplitWithoutSeparator(b, sep);
    } else {
      assert (x + [sep] + b)[1..] == x[1..] + [sep] + b;
      SplitLastPiece(x[1..], sep, b);
    }
  }

  /** The first piece precedes the first separator; the last follows the last. */
  lemma SplitOuterPieces(a: string, m: string, b: string, sep: char)
    requires sep !in a && sep !in b
    ensures |Split(a + [sep] + m + [sep] + b, sep)| >= 2
    ensures Split(a + [sep] + m + [sep] + b, sep)[0] == a
    ensures Split(a + [sep] + m + [sep] + b, sep)[|Split(a + [sep] + m + [sep] + b, sep)| - 1] == b
  {
    var tail := m + [sep] + b;
    var t := a + [sep] + m + [sep] + b;
    assert t == a + [sep] + tail;
    SplitAtFirst(a, sep, tail);
    SplitLastPiece(m, sep, b);
    var rest := Split(tail, sep);
    assert Split(t, sep) == [a] + rest;
    assert rest[|rest| - 1] == b;
    assert ([a] + rest)[|rest|] == rest[|rest| - 1];
  }

  /** Splitting a joined list recovers it when no element holds the separator. */
  lemma {:induction false} SplitJoin(parts: seq<string>, sep: char)
    requires |parts| >= 1
    requires forall i :: 0 <= i < |parts| ==> sep !in parts[i]
    ensures Split(Join(parts, [sep]), sep) == parts
    decreases |parts|
  {
    if |parts| == 1 {
      SplitWithoutSeparator(parts[0], sep);
    } else {
      SplitJoin(parts[1..], sep);
      SplitAtFirst(parts[0], sep, Join(parts[1..], [sep]));
      assert [parts[0]] + parts[1..] == parts;
    }
  }

  /** Index of the first `c` in `s`. */
  function IndexOf(s: string, c: char): (i: nat)
    requires c in s
    ensures i < |s| && s[i] == c && c !in s[..i]
    decreases |s|
  {
    if s[0] == c then 0 else 1 + IndexOf(s[1..], c)
  }

  /** `pat` occurs somewhere in `s`. */
  predicate HasInfix(s: string, pat: string)
    decreases |s|
  {
    |s| >= |pat| && (s[..|pat|] == pat || (s != [] && HasInfix(s[1..], pat)))
  }

  /** Python's `s.replace(pat, rep)`: a single left-to-right pass over
      non-overlapping occurrences. */
  function Replace(s: string, pat: string, rep: string): (r: string)
    requires pat != ""
    ensures |pat| == |rep| ==> |r| == |s|
    decreases |s|
  {
    if |s| < |pat| then s
    else if s[..|pat|] == pat then rep + Replace(s[|pat|..], pat, rep)
    else [s[0]] + Replace(s[1..], pat, rep)
  }

  /** A text without the pattern is left as it is. */
  lemma {:induction false} ReplaceAbsent(s: string, pat: string, rep: string)
    requires pat != "" && !HasInfix(s, pat)
    ensures Replace(s, pat, rep) == s
    decreases |s|
  {
    if |s| >= |pat| {
      ReplaceAbsent(s[1..], pat, rep);
      assert s == [s[0]] + s[1..];
    }
  }

  /** Replacing one character by another rewrites exactly its occurrences,
      position by position. */
  lemma {:induction false} ReplaceChar(s: string, a: char, b: char)
    ensures var r := Replace(s, [a], [b]);
            |r| == |s| && forall k :: 0 <= k < |s| ==> r[k] == (if s[k] == a then b else s[k])
    decreases |s|
  {
    if s != [] {
      var rest := Replace(s[1..], [a], [b]);
      ReplaceChar(s[1..], a, b);
      var head := if s[0] == a then b else s[0];
      assert s[..1] == [s[0]];
      assert Replace(s, [a], [b]) == [head] + rest;
    }
  }

  /** Python's `str(n)` for a natural number. */
  function Decimal(n: nat): (r: string)
    ensures r != []
    ensures forall k :: 0 <= k < |r| ==> '0' <= r[k] <= '9'
  {
    if n < 10 then [('0' as int + n) as char]
    else Decimal(n / 10) + [('0' as int + n % 10) as char]
  }

  /** The number a run of decimal digits spells. */
  function DigitsValue(d: string): nat
    requires forall k :: 0 <= k < |d| ==> '0' <= d[k] <= '9'
    decreases |d|
  {
    if d == [] then 0
    else DigitsValue(d[..|d| - 1]) * 10 + (d[|d| - 1] as int - '0' as int)
  }

  /** `str(n)`: the digits spell `n`, with no leading zero unless `n` is 0. */
  lemma {:induction false} DecimalValue(n: nat)
    ensures DigitsValue(Decimal(n)) == n
    ensures Decimal(n)[0] == '0' ==> n == 0
    decreases n
  {
    if n >= 10 {
      DecimalValue(n / 10);
      var d := Decimal(n / 10);
      assert (d + [('0' as int + n % 10) as char])[..|d|] == d;
      assert (d + [('0' as int + n % 10) as char])[0] == d[0];
    }
  }


  /** The line boundaries recognised by Python's `str.splitlines`. */
  predicate IsLineBreak(c: char) {
    || c == '\n' || c == '\r' || c == '\U{0B}' || c == '\U{0C}'
    || ('\U{1C}' <= c <= '\U{1E}')
    || c == '\U{85}' || c == '\U{2028}' || c == '\U{2029}'
  }

  predicate NoLineBreak(s: string) {
    forall k :: 0 <= k < |s| ==> !IsLineBreak(s[k])
  }

  /** Index of the first line boundary in `s`, or `|s|` when there is none. */
  function LineEnd(s: string): (i: nat)
    ensures i <= |s|
    ensures NoLineBreak(s[..i])
    ensures i < |s| ==> IsLineBreak(s[i])
    decreases |s|
  {
    if s == [] || IsLineBreak(s[0]) then 0 else 1 + LineEnd(s[1..])
  }

  /** Python's `str.splitlines()`: `\r\n` is one boundary and a final boundary
      does not open an empty last line. */
  function SplitLines(s: string): (lines: seq<string>)
    ensures forall i :: 0 <= i < |lines| ==> NoLineBreak(lines[i])
    ensures lines == [] <==> s == ""
    decreases |s|
  {
    if s == "" then []
    else
      var i := LineEnd(s);
      if i == |s| then
        assert s[..i] == s;
        [s]
      else
        var width := if s[i] == '\r' && i + 1 < |s| && s[i + 1] == '\n' then 2 else 1;
        [s[..i]] + SplitLines(s[i + width..])
  }

  /** Splitting lines inverts joining break-free lines with `\n`, blank ones
      included, as long as the last is not empty. */
  lemma {:induction false} SplitLinesJoin(lines: seq<string>)
    requires |lines| >= 1 && lines[|lines| - 1] != ""
    requires forall i :: 0 <= i < |lines| ==> NoLineBreak(lines[i])
    ensures SplitLines(Join(lines, "\n")) == lines
    decreases |lines|
  {
    if |lines| == 1 {
      assert Join(lines, "\n") == lines[0];
      SplitLinesOneLine(lines[0]);
    } else {
      var rest := Join(lines[1..], "\n");
      assert Join(lines, "\n") == lines[0] + "\n" + rest;
      SplitLinesAtBreak(lines[0], "\n", rest);
      SplitLinesJoin(lines[1..]);
      assert [lines[0]] + lines[1..] == lines;
    }
  }

  /** A non-empty text without a boundary is one line. */
  lemma SplitLinesOneLine(s: string)
    requires s != "" && NoLineBreak(s)
    ensures SplitLines(s) == [s]
  {
    LineEndOf(s, "");
    assert s + "" == s;
  }

  /** The first line ends at the first boundary; `\r\n` is one boundary, and
      a lone `\r` (or any other boundary character) is one as well. */
  lemma SplitLinesAtBreak(a: string, br: string, b: string)
    requires NoLineBreak(a)
    requires br == "\r\n" || (|br| == 1 && IsLineBreak(br[0]) && !(br[0] == '\r' && b != "" && b[0] == '\n'))
    ensures SplitLines(a + br + b) == [a] + SplitLines(b)
  {
    var s := a + br + b;
    assert s == a + (br + b);
    LineEndOf(a, br + b);
    assert s[..|a|] == a;
    assert s[|a|] == br[0];
    assert s[|a| + |br|..] == b;
    if br == "\r\n" {
      assert s[|a| + 1] == '\n';
    } else if br[0] == '\r' && |a| + 1 < |s| {
      assert s[|a| + 1] == b[0];
    }
  }

  /** The first boundary of `line + tail` is the one after `line`. */
  lemma {:induction false} LineEndOf(line: string, tail: string)
    requires NoLineBreak(line)
    requires tail == "" || IsLineBreak(tail[0])
    ensures LineEnd(line + tail) == |line|
    decreases |line|
  {
    if line != [] {
      assert (line + tail)[1..] == line[1..] + tail;
      LineEndOf(line[1..], tail);
    } else {
      assert line + tail == tail;
    }
  }
}

=== FILE: wrappers.dfy ===
/** Failure-carrying result types shared by the model. */
module Wrappers {

  /** A value that may be absent (Python's `None`). */
  datatype Option<+T> = None | Some(value: T) {

    /** The value, or `default` when absent: Python's `x or default`. */
    function GetOr(default: T): T {
      match this
      case Some(v) => v
      case None => default
    }
  }

  /** The outcome of a call that either returns a value or raises an error. */
  datatype Result<+T, +E> = Success(value: T) | Failure(error: E)
}
